=== FILE: README.md ===
# SLCAN engine of esp32-obd2, in Dafny

This project models the serial-line CAN (SLCAN, LAWICEL) engine of the
esp32-obd2 firmware and proves properties of the model. The firmware bridges
a host on a UART to a CAN bus. The model covers five pieces:

- **Frame codec.** `slcanFormatFrame` turns a CAN frame into an ASCII line
  (`t`/`r`/`T`/`R`, identifier digits, length digit, data digits, CR), and
  `slcanParseFrame` reads one back.
- **Hex digits.** These are the `HEX2ASCII` and `ASCII2HEX` tables.
- **Command dispatcher.** `slcanExecuteCommand` handles `S`, `O`, `L`, `C`,
  `t`, `r`, `T`, `R`, `F`, `V` and `N`. Each command gets a CR-terminated
  OK, a BEL error, or, for `F` on an open bus, no reply at all.
- **Framer loop.** `slcanRxTask` cuts the UART chunks into commands at each
  CR and saves what follows the last CR for the next chunk. As written, the
  save copies that text over the start of the saved buffer while adding to
  its length. A partial command followed by a chunk without a CR is then
  corrupted (Findings, third row). The model has both this save and a
  corrected one that appends, and the session uses the corrected one.
- **CAN gateway.** `canIsOpen`, `canGetMode`, `canOpen` and `canClose`
  model a bus that is open while a one-slot lock queue holds its token.

Modules (one per file):

| file | module | contents |
|---|---|---|
| base.dfy | Base | bytes, `uint32_t`, `Option`, `Outcome` (value, failure, undefined behaviour), CR and BEL |
| hex.dfy | Hex | digit encoding, the 55-entry `ASCII2HEX` table and a strict digit decoder, fixed-width fields |
| frame.dfy | Frame | `CanMessage`, `FormatFrame`, the parser as written (`ParseFrameAsWritten`) and corrected (`ParseFrame`) |
| can.dfy | Can | the gateway: lock token, configured mode, open/close, traces of calls |
| framer.dfy | Framer | cutting chunks into commands, corrected (`Feed`) and as written (`FeedAsWritten`) |
| dispatcher.dfy | Slcan | the engine state (gateway and staged bit rate) and `Execute` |
| session.dfy | Session | chunks in, responses out: the corrected framer and the dispatcher together, and concrete scenarios |

### Modelling choices

**Undefined behaviour.**
- C code that may read or write outside an array yields
  `Outcome.Undefined`. A reported failure (`ESP_FAIL`) is `Outcome.Fail`.
- `ParseWith` is one parser with two digit decoders.
  - `AsWritten` indexes the table. It is undefined outside `'0'..'f'`. A
    length digit above 8 is undefined when the line is long enough for it,
    because the payload loop then writes past `data[8]`. On a shorter line
    the length check fails first.
  - `Corrected` refuses every non-digit and every length above 8.
- The dispatcher uses the corrected parser. The as-written parser is kept
  for the findings below.

**Driver calls and hardware.**
- Driver calls are inputs. `Hardware` carries whether `can_driver_install`
  and `can_start` succeed, and the factory MAC address. A session takes a
  sequence of them, one per command in the order the commands run.
- Nothing is transmitted on the bus: on a transmit command the source only
  parses the frame and acknowledges it.

**State.**
- The staged bit rate is one of the seven presets `S2`..`S8`, or none.
- The gateway is the number of tokens in the lock queue, plus the mode of
  the last configuration.

**Where the code departs from the LAWICEL protocol it implements
(main/slcan.c:2), the model follows the code:**
- Remote frames carry data digits both ways. The encoder prints `dlc` bytes
  whatever `rtr` is, and the parser reads them.
- `F` on an open bus sends no reply.
- `t`/`T` commands parse and acknowledge but do not transmit.
- There are seven bit rate presets (`S0` and `S1` are refused).
- The standard identifier is three digits on the wire and is not checked
  against 11 bits.
- The parser does not check the first letter of the command. The dispatcher
  only calls it for `t`, `r`, `T` and `R`.

## Model

| member | source | states |
|---|---|---|
| Hex.HexDigit | main/slcan.c:27-29 | every nibble is written as an uppercase hex digit |
| Hex.HexDigitIsTableEntry | main/slcan.c:28-29 | the digit of a nibble is entry `n` of the table `"0123456789ABCDEF"` |
| Hex.UpperHexDigitsAreTable | main/slcan.c:29 | a character is an uppercase hex digit exactly when it occurs in that table |
| Hex.DigitValue | main/slcan.c:32-38 | the strict reading of a digit is defined exactly on `0-9`, `A-F`, `a-f` |
| Hex.Digit | main/slcan.c:32-38 | as written, a lookup is undefined exactly outside `'0'..'f'` and never fails; corrected, it succeeds exactly on hex digits and is never undefined |
| Hex.LutAgreesOnHexDigits | main/slcan.c:33-38 | on every hex digit of either case the table gives the digit's value |
| Hex.LutAliasesNonDigits | main/slcan.c:33-38 | every non-digit between `'0'` and `'f'` reads as 0 from the table |
| Hex.DigitOfHexDigit | main/slcan.c:28-38 | both decoders read the encoder's digit of `n` back as `n` |
| Hex.HexDigitOfDigit | main/slcan.c:28-38 | re-encoding the value of an uppercase digit gives the same digit |
| Hex.EncodeHex | main/slcan.c:89-96 | a field of width `w` is exactly `w` characters |
| Hex.EncodeHexUpper | main/slcan.c:89-96 | every character of a field is an uppercase hex digit |
| Hex.EncodeHexDigits | main/slcan.c:89-96 | character `k` of a field is the nibble `(n >> 4*(w-1-k)) & 0xF`, most significant first |
| Hex.Field | main/slcan.c:152-159 | reading `k` digits yields a value below `16^k`; the strict reading is never undefined |
| Hex.FieldOfEncodeHex | main/slcan.c:89-96 | reading back a field of width `w` with either decoder gives `n` whenever `n < 16^w` |
| Hex.EncodeHexOfField | main/slcan.c:152-159 | an uppercase field reads as `n`, and writing `n` back gives the same characters |
| Hex.FieldDigits | main/slcan.c:152-159 | digit `k` of a field read strictly is the matching nibble of its value |
| Frame.EncodePayload | main/slcan.c:114-119 | the payload is two characters per data byte |
| Frame.EncodePayloadAt | main/slcan.c:114-119 | byte `i` appears at characters `2i` and `2i+1`, high nibble first |
| Frame.EncodePayloadDigits | main/slcan.c:114-119 | every payload character is an uppercase hex digit |
| Frame.FormatFrame | main/slcan.c:79-123 | a formatted frame is `MinLen + 2*dlc` characters long, starts with the letter that `extd`/`rtr` select and ends with CR |
| Frame.FormatFrameDigits | main/slcan.c:88-119 | everything between the letter and the CR is uppercase hex |
| Frame.FormatFrameSplit | main/slcan.c:81-119 | a formatted frame is the identifier field, then the length digit, then the payload of the first `dlc` bytes |
| Frame.FormatFrameIdentifier | main/slcan.c:88-108 | identifier digit `j` is the nibble `(id >> 4*(w-j)) & 0xF`, for 8 digits extended and 3 standard |
| Frame.FormatFrameLayout | main/slcan.c:111-119 | the length digit and the two digits of each data byte sit at their fixed offsets, for remote frames too |
| Frame.Payload | main/slcan.c:181-189 | a payload loop that succeeds read `count` bytes and found two characters for each before the terminator; the strict loop is never undefined |
| Frame.ParseWith | main/slcan.c:131-150 | the empty buffer and one shorter than the minimum for its kind fail; the strict parse never runs into undefined behaviour |
| Frame.ParseIdentifier | main/slcan.c:147-173 | a frame read after the identifier digits keeps the kind the letter selected; the strict reading never runs into undefined behaviour |
| Frame.ParseData | main/slcan.c:161-175 | a frame read after the length digit keeps the kind and the identifier already read; the strict reading never runs into undefined behaviour |
| Frame.ParsePayload | main/slcan.c:161-189 | a frame read after the payload carries the kind, identifier and length read before it, and exactly `dlc` data bytes, `dlc` being at most 8 |
| Frame.ParseFrameCapsLength | main/slcan.c:161-189 | the corrected parse succeeds only where the length digit is a hex digit of at most 8 |
| Frame.ParseFrameAsWritten | main/slcan.c:131-192 | the parse as written fails on the empty buffer, and a frame it returns takes `extd` and `rtr` from the letter, is long enough for its fields and has `dlc <= 8` data bytes |
| Frame.ParseFrame | main/slcan.c:131-192 | a parsed frame takes `extd` from `T`/`R` and `rtr` from `r`/`R`, is long enough for its fields, and has `dlc <= 8` data bytes |
| Frame.ParseParts | main/slcan.c:136-189 | a successful parse (either decoder) took its identifier from the field after the letter, its length from the next digit, and its data from the payload loop after that |
| Frame.ParseOfParts | main/slcan.c:136-191 | conversely, a buffer whose parts read as those fields parses to that frame |
| Frame.ParseFrameParts | main/slcan.c:141-189 | the strict parse's fields, with the length digit read strictly |
| Frame.PayloadHead | main/slcan.c:181-189 | a successful payload loop read its first byte from two digits and the rest from the characters after them |
| Frame.PayloadStep | main/slcan.c:181-189 | one turn of the payload loop prepends the byte read from two digits |
| Frame.PayloadOfEncoded | main/slcan.c:114-119 | the payload loop reads an encoded payload back to its bytes when a terminator follows |
| Frame.ParseWithOfFormat | main/slcan.c:79-192 | either parser reads a formatted frame back to the frame, with data cut to `dlc` bytes |
| Frame.ParseFrameRoundTrip | main/slcan.c:79-192 | `parse(format(m)) == m` for every frame with `dlc <= 8` and an identifier that fits its digits, for both parsers |
| Frame.PayloadBytes | main/slcan.c:181-189 | data byte `i` is the strict value of characters `pos+2i` and `pos+2i+1` |
| Frame.ParseFrameFields | main/slcan.c:141-189 | every identifier nibble, the length and every data byte of a parsed frame are the values of the digits at their offsets |
| Frame.EncodePayloadOfPayload | main/slcan.c:114-119 | uppercase payload digits re-encode from the bytes they parsed to |
| Frame.FormatFrameOfParse | main/slcan.c:79-192 | a line made of a frame letter, uppercase digits and one CR is exactly the formatting of what it parses to (the other half of the round trip) |
| Frame.CanonicalIdentifier | main/slcan.c:88-108 | the identifier digits of such a line are reproduced by the encoder |
| Frame.CanonicalPayload | main/slcan.c:111-119 | the length and payload digits of such a line are reproduced by the encoder |
| Frame.PayloadOfPrefix | main/slcan.c:181-189 | the payload loop depends only on the characters it reads |
| Frame.ParseFrameReadsOnlyConsumed | main/slcan.c:131-192 | a parse reads nothing at or after `Consumed(m)`: any buffer that agrees up to there and is longer parses the same |
| Frame.ParseFrameFromParts | main/slcan.c:141-189 | a buffer with the same letter, length digit, identifier value and payload parses to the same frame |
| Frame.FieldOnDigits | main/slcan.c:33-38 | on hex digits the strict field reading succeeds and the table gives the same value |
| Frame.FieldHexDigits | main/slcan.c:152-159 | a strict field reading succeeds only on hex digits |
| Frame.PayloadOnDigits | main/slcan.c:181-189 | on hex digits before the terminator the strict payload loop succeeds and equals the table's |
| Frame.PayloadHexDigits | main/slcan.c:181-189 | a strict payload loop succeeds only on hex digits |
| Frame.DigitsOfParts | main/slcan.c:141-189 | the characters a parse reads are hex digits exactly when its identifier, length and payload characters are |
| Frame.StrictIsAsWritten | main/slcan.c:131-192 | a strict parse is also a parse of the source's, on a buffer whose read characters are all hex digits |
| Frame.AsWrittenOnDigitsIsStrict | main/slcan.c:131-192 | a source parse over hex digits only is a strict parse |
| Frame.ParseFrameIsStrictAsWritten | main/slcan.c:131-192 | the corrected parse succeeds with `m` exactly when the source's parse gives `m` and every character it read is a hex digit |
| Frame.AsWrittenAliasesNonDigits | main/slcan.c:33-38 | the source's parser reads `t:::0` like `t0000`; the corrected parser refuses it |
| Frame.AsWrittenReadsOutsideTable | main/slcan.c:33-38 | the source's parser indexes outside the table on `t12g0`; the corrected parser refuses it |
| Frame.AsWrittenOverrunsData | main/slcan.c:175-189 | the source's parser stores a ninth data byte for length digit `9`; the corrected parser refuses it |
| Can.Open | main/can.c:60-77 | opening an open bus is refused with `ESP_ERR_INVALID_STATE` and changes nothing; from closed the mode is recorded, and the result is `ESP_OK` (bus open) exactly when both driver calls succeed, `ESP_FAIL` otherwise |
| Can.Close | main/can.c:79-92 | closing a closed bus is refused and changes nothing; from open it succeeds, the bus is closed, and the mode is kept |
| Can.Run | main/can.c:17-19 | over any sequence of calls the lock queue never holds more than its one slot |
| Can.LockNeverBlocks | main/can.c:43-85 | the token is posted only into an empty queue and taken only from a full one, so neither blocking queue call waits |
| Can.AckedAlternate | main/can.c:60-92 | successful opens and closes strictly alternate, and the bus is open after a run exactly when the parity of the successes says so |
| Can.AckedAlternateFromInit | main/can.c:40-92 | from `canInit` the successful calls are open, close, open, ... |
| Can.ModeIsLastAdmitted | main/can.c:55-77 | `canGetMode` reports the mode of the last open that got past the open guard, failed or not, even after a close |
| Can.ModeFromInit | main/can.c:55-58 | from `canInit`, `canGetMode` is -1 until such an open |
| Framer.FirstCr | main/slcan.c:370 | the position found holds a CR |
| Framer.FirstCrIsFirst | main/slcan.c:370 | no CR comes before it; when none is found, there is no CR at all |
| Framer.SplitLinesSplits | main/slcan.c:369-414 | cutting a text gives commands that each end at their only CR and a CR-free rest, which together are the text |
| Framer.SplitLinesUnique | main/slcan.c:369-414 | there is only one such cut |
| Framer.FeedSplits | main/slcan.c:369-414 | one chunk behind a CR-free remainder is cut into lines and a CR-free rest that together are the remainder followed by the chunk |
| Framer.FeedIsSplitLines | main/slcan.c:369-414 | the chunk step is the unique cut of the remainder followed by the chunk |
| Framer.Feed | main/slcan.c:369-414 | the corrected chunk step: its commands followed by what it keeps are the remainder followed by the chunk; it runs a command exactly when the chunk holds a CR, and then the first command ends with CR, every later command is a line, and what it keeps has no CR |
| Framer.FeedLoop | main/slcan.c:369-406 | the source's CR loop (find CR, run the command with the remainder in front of the first, move past it), ended by the corrected save that appends the rest behind the remainder, computes the corrected chunk step |
| Framer.FeedAll | main/slcan.c:353-416 | chunk after chunk, the commands run followed by what is kept are the first remainder followed by all the chunks |
| Framer.FeedAllIsSplitLines | main/slcan.c:353-416 | chunk after chunk, the commands run and the characters kept are those of the whole stream cut at once |
| Framer.Save | main/slcan.c:408-414 | the save step as written puts the tail at offset 0, leaves the bytes after it as they were, and adds its length to the length already stored |
| Framer.FeedAsWritten | main/slcan.c:369-414 | the source's chunk step is undefined exactly when a CR arrives while the stored length exceeds the 27-character buffer; otherwise every command it passes to the dispatcher ends with CR, stale remainder bytes included |
| Framer.FeedAsWrittenAgrees | main/slcan.c:369-414 | with nothing pending, or with a CR in the chunk, the source's step agrees with the corrected one |
| Framer.FeedAsWrittenLosesRemainder | main/slcan.c:408-413 | typing `S`, `5`, CR in three chunks runs `5?` followed by CR in the source, and `S5` followed by CR in the corrected framer |
| Framer.FeedAsWrittenOverrunsStore | main/slcan.c:382-413 | a 27-character chunk without CR and then one more character store length 28, and the next CR copies past the buffer |
| Slcan.BitratePreset | main/slcan.c:214-254 | a preset is chosen exactly for the digits `2` to `8` |
| Slcan.PresetDigitRoundTrip | main/slcan.c:224-251 | each preset has exactly one digit that selects it |
| Slcan.OkResponse | main/slcan.c:48-63 | an OK response ends with CR and is never the error response |
| Slcan.SetBitrate | main/slcan.c:209-256 | `S` leaves the bus alone and either answers OK or answers BEL with nothing changed |
| Slcan.OpenChannel | main/slcan.c:257-278 | `O`/`L` keep the staged rate; the bus changes state only on an OK reply, and never on an error |
| Slcan.Transmit | main/slcan.c:290-323 | a frame command never changes the state and answers BEL or `z`/`Z` |
| Slcan.Execute | main/slcan.c:197-348 | the reply is BEL, nothing, or ends with CR; only an OK `S` changes the staged rate, only an OK `O`/`L`/`C` opens or closes the bus, and an error changes neither |
| Slcan.SetBitrateRule | main/slcan.c:209-256 | `S` answers OK exactly when the bus is closed and the digit is `2`..`8`, and then stages that preset; otherwise BEL and no change |
| Slcan.OpenRule | main/slcan.c:257-278 | `O`/`L` are refused when open or with no staged rate; otherwise they answer OK exactly when both driver calls succeed and record the mode either way |
| Slcan.CloseRule | main/slcan.c:279-289 | `C` is refused when closed; otherwise it closes with OK; the staged rate and the mode survive |
| Slcan.TransmitRule | main/slcan.c:290-323 | `t`/`r`/`T`/`R` are accepted exactly when the bus is open in normal mode and the frame parses; the reply is `Z` exactly for an extended frame |
| Slcan.StatusRule | main/slcan.c:324-331 | `F` is refused when closed and answered with nothing when open |
| Slcan.SerialNumber | main/slcan.c:335-342 | the serial number is `N` and four uppercase digits, of which the first two read back as `mac[4]` and the last two as `mac[5]` |
| Slcan.QueryRule | main/slcan.c:332-344 | `V` answers `V0000`; `N` answers `N` and four uppercase digits that read back as the last two MAC bytes |
| Slcan.UnknownRule | main/slcan.c:201-205 | an empty command, or one with an unknown first byte, is refused without effect |
| Slcan.ListenOnlyRefusesTransmit | main/slcan.c:268-323 | after an `L` that answers OK the bus is open, and every `t`/`r`/`T`/`R` on it is refused without effect |
| Slcan.ReopenAfterClose | main/slcan.c:257-289 | after `C` the bus opens again without a new `S` |
| Session.LineIsReadable | main/slcan.c:214 | every command the framer delivers has the second byte that `S` reads |
| Session.ExecuteAll | main/slcan.c:378-406 | running no commands changes nothing, and running any, each with its own driver and efuse answers, keeps the gateway valid |
| Session.ExecuteAllAppend | main/slcan.c:378-406 | running two batches in turn, the second on the answers the first left, is running them as one, with the outputs concatenated |
| Session.Serve | main/slcan.c:360-415 | with the corrected framer, after a chunk the kept text is CR-free and is what the corrected chunk step keeps |
| Session.ServeAll | main/slcan.c:353-417 | with the corrected framer, after any number of chunks the session keeps exactly what the corrected framer keeps, and stays valid |
| Session.ServeAllIsWhole | main/slcan.c:353-417 | with the corrected framer, however the line is cut into chunks, the session ends in the same state with the same output as when the whole stream is cut at once, the `i`-th command of the stream getting the `i`-th driver answers either way |
| Session.ChunkingIsInvisible | main/slcan.c:353-417 | with the corrected framer, two chunkings of the same stream, with the same driver answers command by command, give the same session and output |
| Session.OpenSteps | main/slcan.c:209-323 | `S5`, `O` and `t1230` answer OK, OK and `z`, stepping through the staged and the open engine |
| Session.TransmitSteps | main/slcan.c:290-305 | `t1230` is acknowledged with `z` on an open bus and refused right after start-up |
| Session.OpenThenTransmit | main/slcan.c:209-305 | the session `S5`, `O`, `t1230` outputs two CRs and `z` and a CR |
| Session.RetryOpen | main/slcan.c:257-278 | after `S5`, an `O` whose driver install fails answers BEL and leaves the bus closed, and a second `O` whose driver calls succeed answers OK and opens it |
| Session.StandardExample | main/slcan.c:79-192 | the frame with identifier 0x123 and no data is written `t1230` and a CR, and reads back |
| Session.ExtendedRemoteExample | main/slcan.c:79-123 | an extended remote frame of two bytes is written with its data digits |

## Left out

- UART I/O, the FreeRTOS tasks, the 100 ms read timeout and the CAN
  receive queue are not modelled. Chunks arrive as a sequence of strings,
  and responses are concatenated into one output string.
- `slcanFramesTxTask`, `canRxTask` and the CAN receive path are left out. Only
  `slcanFormatFrame`, which they would call, is modelled.
- The raw dump of the parsed `can_message_t` to the UART
  (main/slcan.c:300, 317) is left out. Its bytes depend on the C struct
  layout.
- Driver calls become success flags in `Hardware`, and a session gives
  every command its own `Hardware`, so each open sees fresh outcomes.
  Failure codes are not modelled, and nothing ties one open's outcome to
  an earlier one (a driver left installed by a failed `can_start` would
  make the next `can_driver_install` fail).
- The timing and general configuration structs that compound literals
  point at (main/slcan.c:225-249, main/can.c:67) are modelled as values.
  The dangling of those pointers after the enclosing block is not modelled.
- `esp_efuse_mac_get_default` is replaced by the MAC carried in each
  command's `Hardware`. The model does not require it to be the same for
  every command, as a factory MAC is.
- Logging, `malloc` and `free` are left out. The temporary buffer that
  joins the remainder and a command is a string concatenation.
- Frame.ParseWith: with the `AsWritten` decoder, the identifier is built
  as an unbounded value below 2^32. In the source the first of the eight
  extended identifier digits is a `uint8_t` promoted to `int` and shifted
  left by 28 (main/slcan.c:152), which overflows `int` when the digit is
  8 or more. The model gives such an identifier a value rather than
  `Undefined`.
- Frame.FormatFrame: it requires `dlc <= 8`. The source formats whatever
  `data_length_code` the driver hands it (main/slcan.c:112-119, called at
  main/slcan.c:429-430). A length of 9 to 15 reads `data[8..]` past the
  8-byte array, and for 11 or more (extended) or 13 or more (standard)
  the line also runs past the 32-byte output buffer. Those frames are not
  modelled.
- Slcan.Execute: the `Readable` precondition excludes a lone `S` with
  nothing after it. The source would read `buf[1]` past the command; the
  framer never delivers such a command (Session.LineIsReadable).
- Session.Serve: it runs the commands that the corrected chunk step
  (`Framer.Feed`) delivers, not those of the save as written at
  main/slcan.c:408-414 (`Framer.FeedAsWritten`).
- Session.ServeAll: it keeps what the corrected framer keeps. The source's
  store can hold an overwritten or overlong remainder instead
  (`Framer.FeedAsWrittenLosesRemainder`, `Framer.FeedAsWrittenOverrunsStore`).
- Session.ServeAllIsWhole: it holds for the corrected framer only. With the
  save as written, chunking is visible: the chunks `S`, `5`, CR run `5`, a
  stale byte and CR (`Framer.FeedAsWrittenLosesRemainder`), which a closed
  bus answers with BEL, while the stream `S5` CR in one chunk answers OK.
- Session.ChunkingIsInvisible: as for `Session.ServeAllIsWhole`, it is a
  property of the corrected framer, and it does not hold for the firmware
  as written.
- Slcan.Transmit: it uses the corrected parser. As written, the source
  acknowledges lines the corrected parser refuses. For example, on a bus
  open in normal mode, `t:::0` followed by CR gets `z` in the source (`Frame.AsWrittenAliasesNonDigits`)
  and BEL in the model. A length digit above 8 on a long enough line is
  undefined behaviour in the source and BEL in the model.
- Framer.Feed: the corrected remainder is unbounded, where the source keeps
  a fixed 27-character buffer. A bound and a policy for longer commands are
  not part of the fix.
- Can.Open: the configured mode is kept as the mode alone. The pins and
  queue sizes of `CAN_GENERAL_CONFIG_DEFAULT` are not modelled.

## Findings

| source | as written | input that shows it | evidently intended | confidence | as-written member | corrected member |
|---|---|---|---|---|---|---|
| main/slcan.c:33-38 | `ASCII2HEX` indexes a 55-entry table at `c - 0x30` without checking `c`: non-digits between `'0'` and `'f'` read as 0, and other characters index outside the table | `t:::0` followed by CR parses like `t0000`; `t12g0` followed by CR reads outside the table | non-hex characters make the parse fail | not executed | Frame.AsWrittenAliasesNonDigits | Frame.ParseFrameIsStrictAsWritten |
| main/slcan.c:161-189 | the length digit is not checked against 8, so lengths 9 to 15 write past `data[8]` | `t1239` followed by 18 digits and a CR | lengths above 8 make the parse fail | not executed | Frame.AsWrittenOverrunsData | Frame.ParseFrameCapsLength |
| main/slcan.c:408-414 | the remainder is copied to offset 0 of its buffer while its length is added to the old length, so an earlier partial command is overwritten; nothing bounds the length, so the copy at the next CR can read past the 27-character buffer | chunks `S`, `5`, CR run `5?` and CR instead of `S5`; a 27-character chunk without CR, then `A`, then CR, reads 28 characters | the remainder is appended behind what was kept | not executed | Framer.FeedAsWrittenLosesRemainder | Framer.FeedAllIsSplitLines |

=== FILE: base.dfy ===
/** Shared vocabulary of the SLCAN model: machine integers, optional values,
    three-way outcomes of C code that may run into undefined behaviour, and
    the two control characters of the serial protocol. */
module Base {

  /** `uint8_t` */
  type Byte = x: int | 0 <= x < 0x100

  /** `uint32_t` */
  type Uint32 = x: int | 0 <= x < 0x1_0000_0000

  /** A value that may be missing, where the source uses `NULL` or -1. */
  datatype Option<+T> = None | Some(value: T)

  /** What a piece of C code yields: a value, a reported failure
      (`ESP_FAIL`), or undefined behaviour (an access outside an array). */
  datatype Outcome<+T> = Value(value: T) | Fail | Undefined

  /** Carriage return: ends every command and every formatted frame. */
  const CR: char := 13 as char

  /** Bell (`'\a'`): the protocol's error response. */
  const BEL: char := 7 as char

  predicate EndsWithCr(s: string) {
    |s| > 0 && s[|s| - 1] == CR
  }
}

=== FILE: can.dfy ===
/** The CAN gateway of main/can.c: a bus that is open while a one-slot
    lock queue holds its token. `canOpen` installs and starts the driver
    and then posts the token; `canClose` takes the token back and stops the
    driver. The driver calls are inputs: each either succeeds or not. */
module Can {
  import opened Base

  /** The driver modes the engine asks for (`CAN_MODE_NORMAL`,
      `CAN_MODE_LISTEN_ONLY`). */
  datatype Mode = Normal | ListenOnly

  /** The `esp_err_t` values the gateway returns. */
  datatype EspErr = EspOk | EspFail | EspErrInvalidState

  /** Capacity of `canOpenLockQueue`. */
  const LockCapacity: nat := 1

  /** `lock` is the number of tokens in `canOpenLockQueue`; `config` is
      the mode of the general configuration `canGeneralConfig` points at,
      `None` while it is `NULL`. */
  datatype Gateway = Gateway(lock: nat, config: Option<Mode>)

  /** After `canInit`: an empty lock queue and no configuration. */
  const Init: Gateway := Gateway(0, None)

  /** The queue never holds more tokens than it has slots. */
  predicate Valid(g: Gateway) {
    g.lock <= LockCapacity
  }

  /** `canIsOpen`: a non-blocking peek finds the token. */
  predicate IsOpen(g: Gateway) {
    g.lock > 0
  }

  /** `canGetMode`: the configured mode, `None` for the source's -1. */
  function GetMode(g: Gateway): Option<Mode> {
    g.config
  }

  datatype Transition = Transition(gateway: Gateway, result: EspErr)

  /** `canOpen`. Past the already-open guard the configuration is replaced
      before the driver is touched; the token is posted only once both
      `can_driver_install` and `can_start` succeeded. */
  function Open(g: Gateway, mode: Mode, installOk: bool, startOk: bool): (t: Transition)
    requires Valid(g)
    ensures Valid(t.gateway)
    ensures IsOpen(g) ==> t == Transition(g, EspErrInvalidState)
    ensures !IsOpen(g) ==> GetMode(t.gateway) == Some(mode)
    ensures !IsOpen(g) ==> (t.result == EspOk <==> installOk && startOk)
    ensures !IsOpen(g) ==> (t.result != EspOk <==> t.result == EspFail)
    ensures IsOpen(t.gateway) <==> IsOpen(g) || t.result == EspOk
  {
    if IsOpen(g) then Transition(g, EspErrInvalidState)
    else
      var configured := g.(config := Some(mode));
      if !installOk || !startOk then Transition(configured, EspFail)
      else Transition(configured.(lock := configured.lock + 1), EspOk)
  }

  /** `canClose`: from open it takes the token back and stops and
      uninstalls the driver, which cannot fail here. */
  function Close(g: Gateway): (t: Transition)
    requires Valid(g)
    ensures Valid(t.gateway)
    ensures !IsOpen(g) ==> t == Transition(g, EspErrInvalidState)
    ensures IsOpen(g) ==> t.result == EspOk && !IsOpen(t.gateway)
    ensures GetMode(t.gateway) == GetMode(g)
  {
    if !IsOpen(g) then Transition(g, EspErrInvalidState)
    else Transition(g.(lock := g.lock - 1), EspOk)
  }

  /** A call into the gateway, with the driver's outcomes for an open. */
  datatype Call = OpenCall(mode: Mode, installOk: bool, startOk: bool) | CloseCall

  function Step(g: Gateway, c: Call): (t: Transition)
    requires Valid(g)
    ensures Valid(t.gateway)
  {
    match c
    case OpenCall(mode, installOk, startOk) => Open(g, mode, installOk, startOk)
    case CloseCall => Close(g)
  }

  /** The gateway after a sequence of calls. */
  function Run(g: Gateway, calls: seq<Call>): (g': Gateway)
    requires Valid(g)
    ensures Valid(g')
    decreases |calls|
  {
    if |calls| == 0 then g else Run(Step(g, calls[0]).gateway, calls[1..])
  }

  /** The calls that returned `ESP_OK`, in order: `true` for an open,
      `false` for a close. */
  function Acked(g: Gateway, calls: seq<Call>): seq<bool>
    requires Valid(g)
    decreases |calls|
  {
    if |calls| == 0 then []
    else
      var t := Step(g, calls[0]);
      (if t.result == EspOk then [calls[0].OpenCall?] else []) + Acked(t.gateway, calls[1..])
  }

  /** The modes of the opens that got past the already-open guard, in
      order, whether or not the driver then came up. */
  function Admitted(g: Gateway, calls: seq<Call>): seq<Mode>
    requires Valid(g)
    decreases |calls|
  {
    if |calls| == 0 then []
    else
      var t := Step(g, calls[0]);
      (if calls[0].OpenCall? && !IsOpen(g) then [calls[0].mode] else []) + Admitted(t.gateway, calls[1..])
  }

  /** The token is posted only into an empty queue and taken only from a
      full one, so neither queue operation ever blocks. */
  lemma LockNeverBlocks(g: Gateway, c: Call)
    requires Valid(g)
    ensures c.OpenCall? && IsOpen(Step(g, c).gateway) && !IsOpen(g) ==> g.lock < LockCapacity
    ensures c.CloseCall? && Step(g, c).result == EspOk ==> g.lock > 0
    ensures IsOpen(Step(g, c).gateway) <==> Step(g, c).gateway.lock == LockCapacity
  {
  }

  /** Successful opens and closes strictly alternate, beginning with an
      open when the bus starts closed and with a close when it starts
      open; the bus ends open exactly when it started open and an even
      number of calls succeeded, or started closed and an odd number did. */
  lemma {:induction false} AckedAlternate(g: Gateway, calls: seq<Call>)
    requires Valid(g)
    ensures forall i :: 0 <= i < |Acked(g, calls)| ==> Acked(g, calls)[i] == ((i % 2 == 0) != IsOpen(g))
    ensures IsOpen(Run(g, calls)) == (IsOpen(g) != (|Acked(g, calls)| % 2 == 1))
    decreases |calls|
  {
    if |calls| > 0 {
      var t := Step(g, calls[0]);
      var rest := Acked(t.gateway, calls[1..]);
      AckedAlternate(t.gateway, calls[1..]);
      if t.result == EspOk {
        assert IsOpen(t.gateway) == calls[0].OpenCall?;
        assert IsOpen(t.gateway) != IsOpen(g);
        var acked := Acked(g, calls);
        assert acked == [calls[0].OpenCall?] + rest;
        forall i | 1 <= i < |acked|
          ensures acked[i] == ((i % 2 == 0) != IsOpen(g))
        {
          assert acked[i] == rest[i - 1];
        }
      } else {
        assert t.gateway.lock == g.lock;
      }
    }
  }

  /** Starting from `canInit`, the acknowledged calls run open, close,
      open, ... and the bus is open exactly after an odd number of them. */
  lemma AckedAlternateFromInit(calls: seq<Call>)
    ensures forall i :: 0 <= i < |Acked(Init, calls)| ==> Acked(Init, calls)[i] == (i % 2 == 0)
    ensures IsOpen(Run(Init, calls)) <==> |Acked(Init, calls)| % 2 == 1
  {
    AckedAlternate(Init, calls);
  }

  /** `canGetMode` reports the mode of the most recent open that got past
      the already-open guard, even when its driver calls failed or the bus
      was closed since; before any such open it reports what it did
      before. */
  lemma {:induction false} ModeIsLastAdmitted(g: Gateway, calls: seq<Call>)
    requires Valid(g)
    ensures var admitted := Admitted(g, calls);
      GetMode(Run(g, calls)) == if |admitted| == 0 then GetMode(g) else Some(admitted[|admitted| - 1])
    decreases |calls|
  {
    if |calls| > 0 {
      var t := Step(g, calls[0]);
      ModeIsLastAdmitted(t.gateway, calls[1..]);
      var rest := Admitted(t.gateway, calls[1..]);
      if calls[0].OpenCall? && !IsOpen(g) {
        assert Admitted(g, calls) == [calls[0].mode] + rest;
      } else {
        assert Admitted(g, calls) == rest;
        assert GetMode(t.gateway) == GetMode(g);
      }
    }
  }

  /** From `canInit`, `canGetMode` is -1 until an open got past the guard. */
  lemma ModeFromInit(calls: seq<Call>)
    ensures GetMode(Run(Init, calls)).None? <==> |Admitted(Init, calls)| == 0
  {
    ModeIsLastAdmitted(Init, calls);
  }
}

=== FILE: dispatcher.dfy ===
/** The command dispatcher `slcanExecuteCommand` (main/slcan.c:197-348)
    and its responses (main/slcan.c:44-72): one CR-terminated command in,
    one response out, over the state of the gateway and the staged bit
    rate. */
module Slcan {
  import opened Base
  import opened Hex
  import opened Frame
  import opened Can

  /** The bit rate presets of `S2` to `S8`; `S0` (10 kbit/s) and `S1`
      (20 kbit/s) are not supported. */
  datatype Bitrate = Kbit50 | Kbit100 | Kbit125 | Kbit250 | Kbit500 | Kbit800 | Mbit1

  /** The preset the second byte of an `S` command selects. */
  function BitratePreset(c: char): (r: Option<Bitrate>)
    ensures r.Some? <==> '2' <= c <= '8'
  {
    match c
    case '2' => Some(Kbit50)
    case '3' => Some(Kbit100)
    case '4' => Some(Kbit125)
    case '5' => Some(Kbit250)
    case '6' => Some(Kbit500)
    case '7' => Some(Kbit800)
    case '8' => Some(Mbit1)
    case _ => None
  }

  /** The digit that selects a preset. */
  function PresetDigit(b: Bitrate): char {
    match b
    case Kbit50 => '2'
    case Kbit100 => '3'
    case Kbit125 => '4'
    case Kbit250 => '5'
    case Kbit500 => '6'
    case Kbit800 => '7'
    case Mbit1 => '8'
  }

  /** Every preset has exactly one digit: `BitratePreset` and
      `PresetDigit` are inverse to each other. */
  lemma PresetDigitRoundTrip(b: Bitrate, c: char)
    ensures BitratePreset(PresetDigit(b)) == Some(b)
    ensures BitratePreset(c) == Some(b) <==> c == PresetDigit(b)
  {
  }

  /** The engine's state: the gateway and `slcanConfigTiming`, `None`
      while it is `NULL`. */
  datatype Engine = Engine(gateway: Gateway, timing: Option<Bitrate>)

  const Init: Engine := Engine(Can.Init, None)

  predicate EngineValid(e: Engine) {
    Can.Valid(e.gateway)
  }

  /** A MAC address as `esp_efuse_mac_get_default` fills it in. */
  type Mac = s: seq<Byte> | |s| == 6 witness [0, 0, 0, 0, 0, 0]

  /** What the engine cannot see: whether the driver calls of an open
      succeed, and the factory MAC address. */
  datatype Hardware = Hardware(installOk: bool, startOk: bool, mac: Mac)

  datatype Reply = Reply(engine: Engine, response: string)

  /** `slcanRespondError`: a single BEL. */
  const ErrorResponse: string := [BEL]

  /** `slcanRespondOk`: the data, if any, then CR. */
  function OkResponse(data: string): (s: string)
    ensures EndsWithCr(s) && s != ErrorResponse
  {
    data + [CR]
  }

  /** The reply to `V`. */
  const Version: string := "V0000"

  /** The reply to `N`: `"N%.2X%.2X"` of the last two MAC bytes. */
  function SerialNumber(mac: Mac): (s: string)
    ensures |s| == 5 && s[0] == 'N'
    ensures forall i :: 1 <= i < 5 ==> IsUpperHexDigit(s[i])
    ensures Field(Corrected, s[1..3]) == Value(mac[4]) && Field(Corrected, s[3..5]) == Value(mac[5])
  {
    var high := EncodeHex(mac[4], 2);
    var low := EncodeHex(mac[5], 2);
    EncodeHexUpper(mac[4], 2);
    EncodeHexUpper(mac[5], 2);
    FieldOfEncodeHex(Corrected, mac[4], 2);
    FieldOfEncodeHex(Corrected, mac[5], 2);
    var s := "N" + high + low;
    assert s[1..3] == high && s[3..5] == low;
    assert forall i :: 1 <= i < 3 ==> s[i] == high[i - 1];
    assert forall i :: 3 <= i < 5 ==> s[i] == low[i - 3];
    s
  }

  /** The source reads a second byte of an `S` command only while the bus
      is closed; every command the framer delivers has one. */
  predicate Readable(e: Engine, cmd: string) {
    |cmd| > 0 && cmd[0] == 'S' && !IsOpen(e.gateway) ==> |cmd| >= 2
  }

  /** The letter a transmit command is acknowledged with. */
  function TransmitAck(letter: char): string {
    if letter == 'T' || letter == 'R' then "Z" else "z"
  }

  predicate IsTransmit(cmd: string) {
    |cmd| > 0 && (cmd[0] == 't' || cmd[0] == 'r' || cmd[0] == 'T' || cmd[0] == 'R')
  }

  /** `slcanExecuteCommand`. The response is the error BEL, nothing at all
      (`F` on an open bus), or data ending in CR. Only an `S` that
      answers OK stages a bit rate, only an `O`, `L` or `C` that answers
      OK opens or closes the bus, and an error changes neither. */
  function Execute(e: Engine, cmd: string, hw: Hardware): (r: Reply)
    requires EngineValid(e) && Readable(e, cmd)
    ensures EngineValid(r.engine)
    ensures r.response == ErrorResponse || r.response == [] || EndsWithCr(r.response)
    ensures r.engine.timing != e.timing ==> |cmd| > 0 && cmd[0] == 'S' && r.response == OkResponse([])
    ensures IsOpen(r.engine.gateway) != IsOpen(e.gateway)
      ==> |cmd| > 0 && cmd[0] in "OLC" && r.response == OkResponse([])
    ensures r.response == ErrorResponse
      ==> r.engine.timing == e.timing && IsOpen(r.engine.gateway) == IsOpen(e.gateway)
    ensures r.engine.gateway != e.gateway ==> |cmd| > 0 && cmd[0] in "OLC"
  {
    if |cmd| == 0 then Reply(e, ErrorResponse)
    else
      match cmd[0]
      case 'S' => SetBitrate(e, cmd)
      case 'O' => OpenChannel(e, Normal, hw)
      case 'L' => OpenChannel(e, ListenOnly, hw)
      case 'C' =>
        if !IsOpen(e.gateway) then Reply(e, ErrorResponse)
        else
          var t := Close(e.gateway);
          Reply(e.(gateway := t.gateway), if t.result == EspOk then OkResponse([]) else ErrorResponse)
      case 't' => Transmit(e, cmd)
      case 'r' => Transmit(e, cmd)
      case 'T' => Transmit(e, cmd)
      case 'R' => Transmit(e, cmd)
      case 'F' => Reply(e, if IsOpen(e.gateway) then [] else ErrorResponse)
      case 'V' => Reply(e, OkResponse(Version))
      case 'N' => Reply(e, OkResponse(SerialNumber(hw.mac)))
      case _ => Reply(e, ErrorResponse)
  }

  function SetBitrate(e: Engine, cmd: string): (r: Reply)
    requires |cmd| > 0 && cmd[0] == 'S' && Readable(e, cmd)
    ensures r.engine.gateway == e.gateway
    ensures r.response == OkResponse([]) || r == Reply(e, ErrorResponse)
    ensures r.engine.timing != e.timing ==> r.response == OkResponse([])
  {
    if IsOpen(e.gateway) then Reply(e, ErrorResponse)
    else
      match BitratePreset(cmd[1])
      case None => Reply(e, ErrorResponse)
      case Some(b) => Reply(e.(timing := Some(b)), OkResponse([]))
  }

  function OpenChannel(e: Engine, mode: Mode, hw: Hardware): (r: Reply)
    requires EngineValid(e)
    ensures EngineValid(r.engine) && r.engine.timing == e.timing
    ensures r.response == OkResponse([]) || r.response == ErrorResponse
    ensures IsOpen(r.engine.gateway) != IsOpen(e.gateway) ==> r.response == OkResponse([])
    ensures r.response == ErrorResponse ==> IsOpen(r.engine.gateway) == IsOpen(e.gateway)
  {
    if IsOpen(e.gateway) || e.timing.None? then Reply(e, ErrorResponse)
    else
      var t := Open(e.gateway, mode, hw.installOk, hw.startOk);
      Reply(e.(gateway := t.gateway), if t.result == EspOk then OkResponse([]) else ErrorResponse)
  }

  function Transmit(e: Engine, cmd: string): (r: Reply)
    requires IsTransmit(cmd)
    ensures r.engine == e
    ensures r.response == ErrorResponse || r.response == OkResponse(TransmitAck(cmd[0]))
  {
    if !IsOpen(e.gateway) || GetMode(e.gateway) != Some(Normal) then Reply(e, ErrorResponse)
    else
      match ParseFrame(cmd)
      case Some(_) => Reply(e, OkResponse(TransmitAck(cmd[0])))
      case None => Reply(e, ErrorResponse)
  }

  /** `S`: refused while the bus is open and for any second byte other
      than `2` to `8`; otherwise the preset is staged and acknowledged. */
  lemma SetBitrateRule(e: Engine, cmd: string, hw: Hardware)
    requires EngineValid(e) && Readable(e, cmd)
    requires |cmd| > 0 && cmd[0] == 'S'
    ensures var r := Execute(e, cmd, hw);
      && (r.response == OkResponse([]) <==> !IsOpen(e.gateway) && '2' <= cmd[1] <= '8')
      && (r.response == OkResponse([]) ==> r.engine == e.(timing := BitratePreset(cmd[1])))
      && (r.response != OkResponse([]) ==> r == Reply(e, ErrorResponse))
  {
  }

  /** `O` and `L`: refused while the bus is open or before any `S`;
      otherwise acknowledged exactly when the driver comes up, and the
      gateway remembers the mode either way. */
  lemma OpenRule(e: Engine, cmd: string, hw: Hardware)
    requires EngineValid(e) && Readable(e, cmd)
    requires |cmd| > 0 && (cmd[0] == 'O' || cmd[0] == 'L')
    ensures var r := Execute(e, cmd, hw);
      var mode := if cmd[0] == 'O' then Normal else ListenOnly;
      && (IsOpen(e.gateway) || e.timing.None? ==> r == Reply(e, ErrorResponse))
      && (!IsOpen(e.gateway) && e.timing.Some? ==>
            && (r.response == OkResponse([]) <==> hw.installOk && hw.startOk)
            && (r.response != OkResponse([]) ==> r.response == ErrorResponse)
            && IsOpen(r.engine.gateway) == (hw.installOk && hw.startOk)
            && GetMode(r.engine.gateway) == Some(mode)
            && r.engine.timing == e.timing)
  {
  }

  /** `C`: refused while the bus is closed; otherwise the bus closes, the
      reply is OK, and the staged preset stays. */
  lemma CloseRule(e: Engine, cmd: string, hw: Hardware)
    requires EngineValid(e) && Readable(e, cmd)
    requires |cmd| > 0 && cmd[0] == 'C'
    ensures var r := Execute(e, cmd, hw);
      && (!IsOpen(e.gateway) ==> r == Reply(e, ErrorResponse))
      && (IsOpen(e.gateway) ==> r.response == OkResponse([]) && !IsOpen(r.engine.gateway))
      && r.engine.timing == e.timing
      && GetMode(r.engine.gateway) == GetMode(e.gateway)
  {
  }

  /** `t`, `r`, `T`, `R`: accepted exactly when the bus is open in normal
      mode and the frame parses; the reply is `z` for a standard and `Z`
      for an extended frame, and nothing else changes. */
  lemma TransmitRule(e: Engine, cmd: string, hw: Hardware)
    requires EngineValid(e) && Readable(e, cmd)
    requires IsTransmit(cmd)
    ensures var r := Execute(e, cmd, hw);
      && r.engine == e
      && (r.response != ErrorResponse
          <==> IsOpen(e.gateway) && GetMode(e.gateway) == Some(Normal) && ParseFrame(cmd).Some?)
      && (r.response != ErrorResponse ==> r.response == OkResponse(TransmitAck(cmd[0])))
      && (r.response != ErrorResponse ==> (r.response[0] == 'Z' <==> ParseFrame(cmd).value.extd))
  {
    var r := Execute(e, cmd, hw);
    if r.response != ErrorResponse {
      assert r.response == OkResponse(TransmitAck(cmd[0]));
    }
  }

  /** `F`: refused while the bus is closed, and answered with nothing at
      all while it is open; the state never changes. */
  lemma StatusRule(e: Engine, cmd: string, hw: Hardware)
    requires EngineValid(e) && Readable(e, cmd)
    requires |cmd| > 0 && cmd[0] == 'F'
    ensures Execute(e, cmd, hw) == Reply(e, if IsOpen(e.gateway) then [] else ErrorResponse)
  {
  }

  /** `V` always answers `V0000`; `N` answers `N` and the last two MAC
      bytes as two uppercase digits each, which read back as those bytes. */
  lemma QueryRule(e: Engine, cmd: string, hw: Hardware)
    requires EngineValid(e) && Readable(e, cmd)
    requires |cmd| > 0 && (cmd[0] == 'V' || cmd[0] == 'N')
    ensures var r := Execute(e, cmd, hw);
      && r.engine == e
      && (cmd[0] == 'V' ==> r.response == "V0000" + [CR])
      && (cmd[0] == 'N' ==>
            && |r.response| == 6 && r.response[0] == 'N' && EndsWithCr(r.response)
            && Field(Corrected, r.response[1..3]) == Value(hw.mac[4])
            && Field(Corrected, r.response[3..5]) == Value(hw.mac[5]))
  {
    if cmd[0] == 'N' {
      var s := SerialNumber(hw.mac);
      assert s[1..3] == EncodeHex(hw.mac[4], 2);
      assert s[3..5] == EncodeHex(hw.mac[5], 2);
      assert OkResponse(s)[1..3] == s[1..3];
      assert OkResponse(s)[3..5] == s[3..5];
      FieldOfEncodeHex(Corrected, hw.mac[4], 2);
      FieldOfEncodeHex(Corrected, hw.mac[5], 2);
    }
  }

  /** The empty command and every first byte without a meaning are
      refused, and change nothing. */
  lemma UnknownRule(e: Engine, cmd: string, hw: Hardware)
    requires EngineValid(e) && Readable(e, cmd)
    requires |cmd| == 0 || cmd[0] !in "SOLCtrTRFVN"
    ensures Execute(e, cmd, hw) == Reply(e, ErrorResponse)
  {
  }

  /** The staged preset is never cleared: after a close the bus opens
      again without a new `S`. */
  lemma ReopenAfterClose(e: Engine, close: string, open: string, hw: Hardware)
    requires EngineValid(e) && IsOpen(e.gateway) && e.timing.Some?
    requires |close| > 0 && close[0] == 'C' && |open| > 0 && open[0] == 'O'
    requires hw.installOk && hw.startOk
    ensures var closed := Execute(e, close, hw);
      && closed.response == OkResponse([])
      && Execute(closed.engine, open, hw).response == OkResponse([])
      && IsOpen(Execute(closed.engine, open, hw).engine.gateway)
  {
    var closed := Execute(e, close, hw);
    CloseRule(e, close, hw);
    OpenRule(closed.engine, open, hw);
  }

  /** A bus opened with `L` is up, yet every frame command on it is
      refused: `canGetMode` reports listen-only. */
  lemma ListenOnlyRefusesTransmit(e: Engine, listen: string, cmd: string, hw: Hardware)
    requires EngineValid(e) && !IsOpen(e.gateway) && e.timing.Some?
    requires |listen| > 0 && listen[0] == 'L' && hw.installOk && hw.startOk
    requires IsTransmit(cmd)
    ensures var up := Execute(e, listen, hw);
      && up.response == OkResponse([])
      && IsOpen(up.engine.gateway)
      && Execute(up.engine, cmd, hw) == Reply(up.engine, ErrorResponse)
  {
    var up := Execute(e, listen, hw);
    OpenRule(e, listen, hw);
    TransmitRule(up.engine, cmd, hw);
  }
}

=== FILE: frame.dfy ===
/** The SLCAN frame codec (main/slcan.c:74-192): a CAN frame printed as a
    `t`/`r`/`T`/`R` line of fixed-width uppercase hexadecimal fields ending
    in CR, and the parser that reads such a line back. */
module Frame {
  import opened Base
  import opened Hex

  /** The `data` array of `can_message_t` holds 8 bytes. */
  const MaxDataLen: nat := 8

  /** `can_message_t`, reduced to the fields the engine reads and writes.
      `data` lists the payload bytes; only the first `dlc` of them are part
      of the frame. */
  datatype CanMessage = CanMessage(extd: bool, rtr: bool, identifier: Uint32, dlc: Byte, data: seq<Byte>)

  /** Identifier digits on the wire: 8 for extended (29-bit) frames, 3 for
      standard (11-bit) frames. */
  function IdDigits(extd: bool): nat {
    if extd then 8 else 3
  }

  /** `strlen("T1FFFFFFF0\r")` and `strlen("t1FF0\r")`: letter, identifier,
      length digit and CR. */
  function MinLen(extd: bool): nat {
    if extd then 11 else 6
  }

  /** The leading letter: `t` data, `r` remote, upper case when extended. */
  function Letter(extd: bool, rtr: bool): char {
    if extd then (if rtr then 'R' else 'T') else (if rtr then 'r' else 't')
  }

  /** The characters a parse of `m` reads: everything up to, and not
      including, the terminator. */
  function Consumed(m: CanMessage): nat {
    MinLen(m.extd) - 1 + 2 * m.dlc
  }

  /** The encoder reads `data[0..dlc)` out of an 8-byte array. */
  predicate Formattable(m: CanMessage) {
    m.dlc <= MaxDataLen && m.dlc <= |m.data|
  }

  /** One payload byte, high nibble first. */
  function EncodeByte(b: Byte): string {
    [HexDigit(b / 16), HexDigit(b % 16)]
  }

  function EncodePayload(bytes: seq<Byte>): (s: string)
    ensures |s| == 2 * |bytes|
  {
    if |bytes| == 0 then [] else EncodeByte(bytes[0]) + EncodePayload(bytes[1..])
  }

  /** `slcanFormatFrame`. Remote frames carry their payload digits as well:
      the encoder prints `dlc` bytes whatever `rtr` is. */
  function FormatFrame(m: CanMessage): (s: string)
    requires Formattable(m)
    ensures |s| == MinLen(m.extd) + 2 * m.dlc
    ensures s[0] == Letter(m.extd, m.rtr)
    ensures EndsWithCr(s)
  {
    [Letter(m.extd, m.rtr)] + EncodeHex(m.identifier, IdDigits(m.extd)) + [HexDigit(m.dlc % 16)]
    + EncodePayload(m.data[..m.dlc]) + [CR]
  }

  /** Every character of a payload is an uppercase digit. */
  lemma {:induction false} EncodePayloadDigits(bytes: seq<Byte>)
    ensures forall i :: 0 <= i < |EncodePayload(bytes)| ==> IsUpperHexDigit(EncodePayload(bytes)[i])
    decreases |bytes|
  {
    if |bytes| > 0 {
      EncodePayloadDigits(bytes[1..]);
      var rest := EncodePayload(bytes[1..]);
      assert EncodePayload(bytes) == EncodeByte(bytes[0]) + rest;
      forall i | 2 <= i < |EncodePayload(bytes)|
        ensures EncodePayload(bytes)[i] == rest[i - 2]
      {
      }
    }
  }

  /** Between the letter and the terminator a formatted frame holds only
      uppercase digits: `HEX2ASCII_LUT` is the only source of characters. */
  lemma FormatFrameDigits(m: CanMessage)
    requires Formattable(m)
    ensures forall i :: 1 <= i < |FormatFrame(m)| - 1 ==> IsUpperHexDigit(FormatFrame(m)[i])
  {
    var s := FormatFrame(m);
    var w := IdDigits(m.extd);
    var id := EncodeHex(m.identifier, w);
    var payload := EncodePayload(m.data[..m.dlc]);
    EncodeHexUpper(m.identifier, w);
    EncodePayloadDigits(m.data[..m.dlc]);
    assert s == [Letter(m.extd, m.rtr)] + id + [HexDigit(m.dlc % 16)] + payload + [CR];
    forall i | 1 <= i < |s| - 1
      ensures IsUpperHexDigit(s[i])
    {
      if i < 1 + w {
        assert s[i] == id[i - 1];
      } else if i > 1 + w {
        assert s[i] == payload[i - 2 - w];
      }
    }
  }

  /** The payload loop of `slcanParseFrame`: before each byte it checks
      that two characters remain in front of the terminator, then reads the
      high and the low digit. */
  function Payload(d: Decoding, buf: string, pos: nat, count: nat): (r: Outcome<seq<Byte>>)
    ensures r.Value? ==> |r.value| == count
    ensures r.Value? && count > 0 ==> pos + 2 * count <= |buf| - 1
    ensures d == Corrected ==> !r.Undefined?
    decreases count
  {
    if count == 0 then Value([])
    else if |buf| - 1 < pos + 2 then Fail
    else
      match Digit(d, buf[pos])
      case Fail => Fail
      case Undefined => Undefined
      case Value(high) =>
        match Digit(d, buf[pos + 1])
        case Fail => Fail
        case Undefined => Undefined
        case Value(low) =>
          match Payload(d, buf, pos + 2, count - 1)
          case Fail => Fail
          case Undefined => Undefined
          case Value(rest) => Value([high * 16 + low] + rest)
  }

  /** `slcanParseFrame`, with the digit decoder as a parameter: the empty
      buffer and a buffer shorter than the minimum for its kind fail before
      anything past the first character is read. */
  function ParseWith(d: Decoding, buf: string): (r: Outcome<CanMessage>)
    ensures d == Corrected ==> !r.Undefined?
    ensures |buf| < MinLen(|buf| > 0 && (buf[0] == 'T' || buf[0] == 'R')) ==> r.Fail?
  {
    if |buf| == 0 then Fail
    else
      var extd := buf[0] == 'T' || buf[0] == 'R';
      var rtr := buf[0] == 'r' || buf[0] == 'R';
      if |buf| < MinLen(extd) then Fail
      else ParseIdentifier(d, buf, extd, rtr)
  }

  /** The identifier digits, most significant first. */
  function ParseIdentifier(d: Decoding, buf: string, extd: bool, rtr: bool): (r: Outcome<CanMessage>)
    requires |buf| >= MinLen(extd)
    ensures d == Corrected ==> !r.Undefined?
    ensures r.Value? ==> r.value.extd == extd && r.value.rtr == rtr
  {
    var w := IdDigits(extd);
    match Field(d, buf[1..1 + w])
    case Fail => Fail
    case Undefined => Undefined
    case Value(id) =>
      assert Pow16(w) <= 0x1_0000_0000 by {
        assert Pow16(3) == 0x1000;
        assert Pow16(8) == 0x1_0000_0000;
      }
      ParseData(d, buf, extd, rtr, id)
  }

  /** The length digit. */
  function ParseData(d: Decoding, buf: string, extd: bool, rtr: bool, id: Uint32): (r: Outcome<CanMessage>)
    requires |buf| >= MinLen(extd)
    ensures d == Corrected ==> !r.Undefined?
    ensures r.Value? ==> r.value.extd == extd && r.value.rtr == rtr && r.value.identifier == id
  {
    match Digit(d, buf[1 + IdDigits(extd)])
    case Fail => Fail
    case Undefined => Undefined
    case Value(dlc) => ParsePayload(d, buf, extd, rtr, id, dlc)
  }

  /** The length check against the length digit, then the payload. The
      source lets a length digit of 9 to 15 through to the payload loop,
      which then stores a ninth byte past the end of the 8-byte `data`
      array; the corrected parse refuses such a digit instead. */
  function ParsePayload(d: Decoding, buf: string, extd: bool, rtr: bool, id: Uint32, dlc: Nibble)
    : (r: Outcome<CanMessage>)
    ensures d == Corrected ==> !r.Undefined?
    ensures r.Value? ==> r.value.dlc <= MaxDataLen
    ensures r.Value? ==> r.value == CanMessage(extd, rtr, id, dlc, r.value.data)
    ensures r.Value? ==> |r.value.data| == dlc
  {
    if |buf| < MinLen(extd) + dlc * 2 then Fail
    else if dlc > MaxDataLen then (if d == Corrected then Fail else Undefined)
    else
      match Payload(d, buf, 2 + IdDigits(extd), dlc)
      case Fail => Fail
      case Undefined => Undefined
      case Value(data) => Value(CanMessage(extd, rtr, id, dlc, data))
  }

  /** `slcanParseFrame` as written: table-driven digits, and a length
      digit up to 15 that overruns the data array. */
  function ParseFrameAsWritten(buf: string): (r: Outcome<CanMessage>)
    ensures |buf| == 0 ==> r.Fail?
    ensures r.Value? ==> |buf| >= MinLen(r.value.extd) + 2 * r.value.dlc
    ensures r.Value? ==> r.value.extd == (buf[0] == 'T' || buf[0] == 'R')
    ensures r.Value? ==> r.value.rtr == (buf[0] == 'r' || buf[0] == 'R')
    ensures r.Value? ==> r.value.dlc <= MaxDataLen && |r.value.data| == r.value.dlc
  {
    var r := ParseWith(AsWritten, buf);
    if r.Value? then ParseParts(AsWritten, buf, r.value); r else r
  }

  /** `slcanParseFrame` with strict digits and at most 8 data bytes. */
  function ParseFrame(buf: string): (r: Option<CanMessage>)
    ensures r.Some? ==> |buf| >= MinLen(r.value.extd) + 2 * r.value.dlc
    ensures r.Some? ==> r.value.extd == (buf[0] == 'T' || buf[0] == 'R')
    ensures r.Some? ==> r.value.rtr == (buf[0] == 'r' || buf[0] == 'R')
    ensures r.Some? ==> r.value.dlc <= MaxDataLen && |r.value.data| == r.value.dlc
  {
    match ParseWith(Corrected, buf)
    case Value(m) => Some(m)
    case _ => None
  }

  /** Byte `i` of a payload occupies characters `2i` and `2i+1`. */
  lemma {:induction false} EncodePayloadAt(bytes: seq<Byte>, i: nat)
    requires i < |bytes|
    ensures EncodePayload(bytes)[2 * i] == HexDigit(bytes[i] / 16)
    ensures EncodePayload(bytes)[2 * i + 1] == HexDigit(bytes[i] % 16)
    decreases i
  {
    if i > 0 {
      EncodePayloadAt(bytes[1..], i - 1);
      assert EncodePayload(bytes)[2 * i] == EncodePayload(bytes[1..])[2 * (i - 1)];
      assert EncodePayload(bytes)[2 * i + 1] == EncodePayload(bytes[1..])[2 * (i - 1) + 1];
    }
  }

  /** The fields of a formatted frame, as slices of the line. */
  lemma FormatFrameSplit(m: CanMessage)
    requires Formattable(m)
    ensures var s := FormatFrame(m); var w := IdDigits(m.extd);
      && s[1..1 + w] == EncodeHex(m.identifier, w)
      && s[1 + w] == HexDigit(m.dlc)
      && s[2 + w..2 + w + 2 * m.dlc] == EncodePayload(m.data[..m.dlc])
  {
    var s := FormatFrame(m);
    var w := IdDigits(m.extd);
    var id := EncodeHex(m.identifier, w);
    var payload := EncodePayload(m.data[..m.dlc]);
    assert s == [Letter(m.extd, m.rtr)] + id + [HexDigit(m.dlc % 16)] + payload + [CR];
    assert s[1..1 + w] == id;
    assert s[2 + w..2 + w + 2 * m.dlc] == payload;
  }

  /** The identifier digits of a formatted frame, most significant first:
      the digit at position `j` is `identifier >> 4*(w-j) & 0xF`. */
  lemma FormatFrameIdentifier(m: CanMessage)
    requires Formattable(m)
    ensures forall j :: 1 <= j <= IdDigits(m.extd) ==>
      FormatFrame(m)[j] == HexDigit(m.identifier / Pow16(IdDigits(m.extd) - j) % 16)
  {
    var s := FormatFrame(m);
    var w := IdDigits(m.extd);
    FormatFrameSplit(m);
    forall j | 1 <= j <= w
      ensures s[j] == HexDigit(m.identifier / Pow16(w - j) % 16)
    {
      assert s[j] == s[1..1 + w][j - 1];
      EncodeHexDigits(m.identifier, w, j - 1);
    }
  }

  /** The layout of a formatted frame: after the identifier one length
      digit, then each data byte as its high and its low nibble. */
  lemma FormatFrameLayout(m: CanMessage)
    requires Formattable(m)
    ensures FormatFrame(m)[1 + IdDigits(m.extd)] == HexDigit(m.dlc)
    ensures forall i :: 0 <= i < m.dlc ==>
      FormatFrame(m)[2 + IdDigits(m.extd) + 2 * i] == HexDigit(m.data[i] / 16)
      && FormatFrame(m)[3 + IdDigits(m.extd) + 2 * i] == HexDigit(m.data[i] % 16)
  {
    var s := FormatFrame(m);
    var w := IdDigits(m.extd);
    var payload := EncodePayload(m.data[..m.dlc]);
    FormatFrameSplit(m);
    forall i | 0 <= i < m.dlc
      ensures s[2 + w + 2 * i] == HexDigit(m.data[i] / 16)
      ensures s[3 + w + 2 * i] == HexDigit(m.data[i] % 16)
    {
      assert s[2 + w + 2 * i] == s[2 + w..2 + w + 2 * m.dlc][2 * i];
      assert s[3 + w + 2 * i] == s[2 + w..2 + w + 2 * m.dlc][2 * i + 1];
      EncodePayloadAt(m.data[..m.dlc], i);
    }
  }

  /** What a successful parse is made of: the identifier field, the
      length digit and the payload loop each succeeded. */
  lemma ParseParts(d: Decoding, buf: string, m: CanMessage)
    requires ParseWith(d, buf) == Value(m)
    ensures |buf| >= MinLen(m.extd) + 2 * m.dlc
    ensures m.extd == (buf[0] == 'T' || buf[0] == 'R') && m.rtr == (buf[0] == 'r' || buf[0] == 'R')
    ensures Field(d, buf[1..1 + IdDigits(m.extd)]) == Value(m.identifier)
    ensures Digit(d, buf[1 + IdDigits(m.extd)]).Value? && Digit(d, buf[1 + IdDigits(m.extd)]).value == m.dlc
    ensures m.dlc <= MaxDataLen
    ensures Payload(d, buf, 2 + IdDigits(m.extd), m.dlc) == Value(m.data)
  {
    var rtr := buf[0] == 'r' || buf[0] == 'R';
    ParseIdentifierParts(d, buf, m, rtr);
    ParseDataParts(d, buf, m, rtr);
    ParsePayloadParts(d, buf, m, rtr);
  }

  lemma ParseIdentifierParts(d: Decoding, buf: string, m: CanMessage, rtr: bool)
    requires ParseWith(d, buf) == Value(m)
    requires rtr == (buf[0] == 'r' || buf[0] == 'R')
    ensures |buf| >= MinLen(m.extd)
    ensures m.extd == (buf[0] == 'T' || buf[0] == 'R') && m.rtr == rtr
    ensures Field(d, buf[1..1 + IdDigits(m.extd)]) == Value(m.identifier)
    ensures ParseData(d, buf, m.extd, rtr, m.identifier) == Value(m)
  {
    assert ParseIdentifier(d, buf, m.extd, rtr) == Value(m);
  }

  lemma ParseDataParts(d: Decoding, buf: string, m: CanMessage, rtr: bool)
    requires |buf| >= MinLen(m.extd)
    requires ParseData(d, buf, m.extd, rtr, m.identifier) == Value(m)
    ensures Digit(d, buf[1 + IdDigits(m.extd)]).Value? && Digit(d, buf[1 + IdDigits(m.extd)]).value == m.dlc
    ensures ParsePayload(d, buf, m.extd, rtr, m.identifier, m.dlc) == Value(m)
  {
  }

  lemma ParsePayloadParts(d: Decoding, buf: string, m: CanMessage, rtr: bool)
    requires m.dlc < 16
    requires ParsePayload(d, buf, m.extd, rtr, m.identifier, m.dlc) == Value(m)
    ensures |buf| >= MinLen(m.extd) + 2 * m.dlc
    ensures m.dlc <= MaxDataLen
    ensures Payload(d, buf, 2 + IdDigits(m.extd), m.dlc) == Value(m.data)
  {
  }

  /** The converse of `ParseParts`: a parse whose three steps succeed
      yields the frame they read. */
  lemma ParseOfParts(d: Decoding, buf: string, m: CanMessage)
    requires |buf| >= MinLen(m.extd) + 2 * m.dlc
    requires m.extd == (buf[0] == 'T' || buf[0] == 'R') && m.rtr == (buf[0] == 'r' || buf[0] == 'R')
    requires Field(d, buf[1..1 + IdDigits(m.extd)]) == Value(m.identifier)
    requires Digit(d, buf[1 + IdDigits(m.extd)]).Value? && Digit(d, buf[1 + IdDigits(m.extd)]).value == m.dlc
    requires m.dlc <= MaxDataLen
    requires Payload(d, buf, 2 + IdDigits(m.extd), m.dlc) == Value(m.data)
    ensures ParseWith(d, buf) == Value(m)
  {
    assert ParsePayload(d, buf, m.extd, m.rtr, m.identifier, m.dlc) == Value(m);
    assert ParseData(d, buf, m.extd, m.rtr, m.identifier) == Value(m);
    assert ParseIdentifier(d, buf, m.extd, m.rtr) == Value(m);
  }

  /** `ParseParts` for the corrected parse, with digits read by
      `DigitValue`. */
  lemma ParseFrameParts(buf: string, m: CanMessage)
    requires ParseFrame(buf) == Some(m)
    ensures |buf| >= MinLen(m.extd) + 2 * m.dlc
    ensures Field(Corrected, buf[1..1 + IdDigits(m.extd)]) == Value(m.identifier)
    ensures DigitValue(buf[1 + IdDigits(m.extd)]) == Some(m.dlc)
    ensures Payload(Corrected, buf, 2 + IdDigits(m.extd), m.dlc) == Value(m.data)
  {
    ParseFrameValue(buf);
    CorrectedParts(buf, m);
  }

  /** The corrected parse caps the length: whatever follows, it succeeds
      only where the length digit is at most 8. */
  lemma ParseFrameCapsLength(buf: string)
    ensures ParseFrame(buf).Some? ==>
      var w := IdDigits(buf[0] == 'T' || buf[0] == 'R');
      1 + w < |buf| && DigitValue(buf[1 + w]).Some? && DigitValue(buf[1 + w]).value <= MaxDataLen
  {
    if ParseFrame(buf).Some? {
      ParseFrameParts(buf, ParseFrame(buf).value);
    }
  }

  lemma CorrectedParts(buf: string, m: CanMessage)
    requires ParseWith(Corrected, buf) == Value(m)
    ensures |buf| >= MinLen(m.extd) + 2 * m.dlc
    ensures Field(Corrected, buf[1..1 + IdDigits(m.extd)]) == Value(m.identifier)
    ensures DigitValue(buf[1 + IdDigits(m.extd)]) == Some(m.dlc)
    ensures Payload(Corrected, buf, 2 + IdDigits(m.extd), m.dlc) == Value(m.data)
  {
    ParseParts(Corrected, buf, m);
    CorrectedDigit(buf[1 + IdDigits(m.extd)]);
  }

  lemma ParseFrameValue(buf: string)
    ensures ParseFrame(buf).Some? ==> ParseWith(Corrected, buf) == Value(ParseFrame(buf).value)
  {
  }

  lemma CorrectedDigit(c: char)
    ensures Digit(Corrected, c).Value? ==> DigitValue(c) == Some(Digit(Corrected, c).value)
  {
  }

  /** A successful payload loop read its first byte from two digits. */
  lemma PayloadHead(d: Decoding, buf: string, pos: nat, count: nat, data: seq<Byte>)
    requires Payload(d, buf, pos, count) == Value(data)
    requires count > 0
    ensures pos + 2 <= |buf| - 1
    ensures Digit(d, buf[pos]).Value? && Digit(d, buf[pos + 1]).Value?
    ensures data[0] == Digit(d, buf[pos]).value * 16 + Digit(d, buf[pos + 1]).value
    ensures Payload(d, buf, pos + 2, count - 1) == Value(data[1..])
  {
  }

  /** One turn of the payload loop, for a byte whose two digits decode. */
  lemma PayloadStep(d: Decoding, buf: string, pos: nat, count: nat)
    requires count > 0 && |buf| - 1 >= pos + 2
    requires Digit(d, buf[pos]).Value? && Digit(d, buf[pos + 1]).Value?
    requires Payload(d, buf, pos + 2, count - 1).Value?
    ensures Payload(d, buf, pos, count)
      == Value([Digit(d, buf[pos]).value * 16 + Digit(d, buf[pos + 1]).value]
               + Payload(d, buf, pos + 2, count - 1).value)
  {
  }

  lemma EncodedPayloadHead(buf: string, pos: nat, bytes: seq<Byte>)
    requires |bytes| > 0 && pos + 2 * |bytes| <= |buf|
    requires buf[pos..pos + 2 * |bytes|] == EncodePayload(bytes)
    ensures buf[pos] == HexDigit(bytes[0] / 16) && buf[pos + 1] == HexDigit(bytes[0] % 16)
    ensures buf[pos + 2..pos + 2 * |bytes|] == EncodePayload(bytes[1..])
  {
    var enc := EncodePayload(bytes);
    assert enc == EncodeByte(bytes[0]) + EncodePayload(bytes[1..]);
    assert buf[pos] == enc[0];
    assert buf[pos + 1] == enc[1];
    assert buf[pos + 2..pos + 2 * |bytes|] == enc[2..];
  }

  /** The payload loop reads back what `EncodePayload` wrote, under either
      decoder. */
  lemma {:induction false} PayloadOfEncoded(d: Decoding, buf: string, pos: nat, bytes: seq<Byte>)
    requires pos + 2 * |bytes| <= |buf| - 1
    requires buf[pos..pos + 2 * |bytes|] == EncodePayload(bytes)
    ensures Payload(d, buf, pos, |bytes|) == Value(bytes)
    decreases |bytes|
  {
    if |bytes| > 0 {
      var b := bytes[0];
      var high, low := b / 16, b % 16;
      EncodedPayloadHead(buf, pos, bytes);
      PayloadOfEncoded(d, buf, pos + 2, bytes[1..]);
      DigitOfHexDigit(d, high);
      DigitOfHexDigit(d, low);
      PayloadStep(d, buf, pos, |bytes|);
      assert high * 16 + low == b;
      assert [b] + bytes[1..] == bytes;
    }
  }

  /** Parsing a formatted frame gives the frame back, under either decoder,
      when the identifier fits the printed width. */
  lemma ParseWithOfFormat(d: Decoding, m: CanMessage)
    requires Formattable(m)
    requires m.identifier < Pow16(IdDigits(m.extd))
    ensures ParseWith(d, FormatFrame(m)) == Value(m.(data := m.data[..m.dlc]))
  {
    var s := FormatFrame(m);
    var w := IdDigits(m.extd);
    FormatFrameSplit(m);
    FieldOfEncodeHex(d, m.identifier, w);
    DigitOfHexDigit(d, m.dlc);
    PayloadOfEncoded(d, s, 2 + w, m.data[..m.dlc]);
  }

  /** Round trip: a frame with at most 8 data bytes and an identifier that
      fits 32 bits (extended) or 12 bits (standard) is printed and parsed
      back with the same kind, identifier, length and payload. */
  lemma ParseFrameRoundTrip(m: CanMessage)
    requires Formattable(m)
    requires m.identifier < Pow16(IdDigits(m.extd))
    ensures ParseFrame(FormatFrame(m)) == Some(m.(data := m.data[..m.dlc]))
    ensures ParseFrameAsWritten(FormatFrame(m)) == Value(m.(data := m.data[..m.dlc]))
  {
    ParseWithOfFormat(Corrected, m);
    ParseWithOfFormat(AsWritten, m);
  }

  lemma {:induction false} PayloadBytes(buf: string, pos: nat, count: nat, data: seq<Byte>, i: nat)
    requires Payload(Corrected, buf, pos, count) == Value(data)
    requires i < count
    ensures DigitValue(buf[pos + 2 * i]).Some? && DigitValue(buf[pos + 2 * i + 1]).Some?
    ensures data[i] == DigitValue(buf[pos + 2 * i]).value * 16 + DigitValue(buf[pos + 2 * i + 1]).value
    decreases count
  {
    PayloadHead(Corrected, buf, pos, count, data);
    if i > 0 {
      PayloadBytes(buf, pos + 2, count - 1, data[1..], i - 1);
    }
  }

  /** What a successful parse read: the identifier digit by digit, most
      significant first, and each data byte as `(high << 4) | low`. */
  lemma ParseFrameFields(buf: string, m: CanMessage)
    requires ParseFrame(buf) == Some(m)
    ensures forall j :: 1 <= j <= IdDigits(m.extd) ==>
      DigitValue(buf[j]).Some?
      && m.identifier / Pow16(IdDigits(m.extd) - j) % 16 == DigitValue(buf[j]).value
    ensures DigitValue(buf[1 + IdDigits(m.extd)]) == Some(m.dlc)
    ensures forall i :: 0 <= i < m.dlc ==>
      DigitValue(buf[2 + IdDigits(m.extd) + 2 * i]).Some?
      && DigitValue(buf[3 + IdDigits(m.extd) + 2 * i]).Some?
      && m.data[i] == DigitValue(buf[2 + IdDigits(m.extd) + 2 * i]).value * 16
                      + DigitValue(buf[3 + IdDigits(m.extd) + 2 * i]).value
  {
    ParseFrameParts(buf, m);
    IdentifierDigits(buf, m.identifier, IdDigits(m.extd));
    DataDigits(buf, 2 + IdDigits(m.extd), m.dlc, m.data);
  }

  lemma IdentifierDigits(buf: string, id: nat, w: nat)
    requires 1 + w <= |buf|
    requires Field(Corrected, buf[1..1 + w]) == Value(id)
    ensures forall j :: 1 <= j <= w ==>
      DigitValue(buf[j]).Some? && id / Pow16(w - j) % 16 == DigitValue(buf[j]).value
  {
    forall j | 1 <= j <= w
      ensures DigitValue(buf[j]).Some?
      ensures id / Pow16(w - j) % 16 == DigitValue(buf[j]).value
    {
      FieldDigits(buf[1..1 + w], id, j - 1);
      assert buf[1..1 + w][j - 1] == buf[j];
    }
  }

  lemma DataDigits(buf: string, pos: nat, count: nat, data: seq<Byte>)
    requires Payload(Corrected, buf, pos, count) == Value(data)
    ensures forall i :: 0 <= i < count ==>
      DigitValue(buf[pos + 2 * i]).Some? && DigitValue(buf[pos + 2 * i + 1]).Some?
      && data[i] == DigitValue(buf[pos + 2 * i]).value * 16 + DigitValue(buf[pos + 2 * i + 1]).value
  {
    forall i | 0 <= i < count
      ensures DigitValue(buf[pos + 2 * i]).Some? && DigitValue(buf[pos + 2 * i + 1]).Some?
      ensures data[i] == DigitValue(buf[pos + 2 * i]).value * 16 + DigitValue(buf[pos + 2 * i + 1]).value
    {
      PayloadBytes(buf, pos, count, data, i);
    }
  }

  lemma {:induction false} EncodePayloadOfPayload(buf: string, pos: nat, count: nat, data: seq<Byte>)
    requires Payload(Corrected, buf, pos, count) == Value(data)
    requires pos <= |buf|
    requires forall i :: pos <= i < pos + 2 * count ==> IsUpperHexDigit(buf[i])
    ensures pos + 2 * count <= |buf|
    ensures EncodePayload(data) == buf[pos..pos + 2 * count]
    decreases count
  {
    if count > 0 {
      PayloadHead(Corrected, buf, pos, count, data);
      var high := DigitValue(buf[pos]).value;
      var low := DigitValue(buf[pos + 1]).value;
      assert data[0] / 16 == high && data[0] % 16 == low;
      HexDigitOfDigit(buf[pos]);
      HexDigitOfDigit(buf[pos + 1]);
      EncodePayloadOfPayload(buf, pos + 2, count - 1, data[1..]);
      assert buf[pos..pos + 2 * count] == [buf[pos], buf[pos + 1]] + buf[pos + 2..pos + 2 * count];
    }
  }

  /** The converse of the round trip: a line in canonical form (a frame
      letter, uppercase digits, no characters past the payload, CR) is
      exactly what the encoder prints for the frame parsed from it. */
  lemma FormatFrameOfParse(buf: string, m: CanMessage)
    requires ParseFrame(buf) == Some(m)
    requires buf[0] == 't' || buf[0] == 'r' || buf[0] == 'T' || buf[0] == 'R'
    requires |buf| == Consumed(m) + 1 && EndsWithCr(buf)
    requires forall i :: 1 <= i < |buf| - 1 ==> IsUpperHexDigit(buf[i])
    ensures Formattable(m) && FormatFrame(m) == buf
  {
    var w := IdDigits(m.extd);
    var n := 2 * m.dlc;
    ParseFrameParts(buf, m);
    var s := FormatFrame(m);
    CanonicalIdentifier(buf, m);
    CanonicalPayload(buf, m);
    assert s[1 + w] == buf[1 + w] by {
      FormatFrameSplit(m);
      HexDigitOfDigit(buf[1 + w]);
    }
    Decompose(s, w, n);
    Decompose(buf, w, n);
  }

  lemma CanonicalIdentifier(buf: string, m: CanMessage)
    requires ParseFrame(buf) == Some(m)
    requires forall i :: 1 <= i < |buf| - 1 ==> IsUpperHexDigit(buf[i])
    ensures FormatFrame(m)[1..1 + IdDigits(m.extd)] == buf[1..1 + IdDigits(m.extd)]
  {
    var w := IdDigits(m.extd);
    ParseFrameParts(buf, m);
    FormatFrameSplit(m);
    EncodeHexOfField(buf[1..1 + w], m.identifier);
  }

  lemma CanonicalPayload(buf: string, m: CanMessage)
    requires ParseFrame(buf) == Some(m)
    requires forall i :: 1 <= i < |buf| - 1 ==> IsUpperHexDigit(buf[i])
    ensures FormatFrame(m)[2 + IdDigits(m.extd)..Consumed(m)] == buf[2 + IdDigits(m.extd)..Consumed(m)]
  {
    var w := IdDigits(m.extd);
    ParseFrameParts(buf, m);
    FormatFrameSplit(m);
    EncodePayloadOfPayload(buf, 2 + w, m.dlc, m.data);
    assert m.data[..m.dlc] == m.data;
  }

  /** A line as its five parts: letter, identifier, length digit, payload
      and terminator. */
  lemma Decompose(x: string, w: nat, n: nat)
    requires |x| == w + n + 3
    ensures x == [x[0]] + x[1..1 + w] + [x[1 + w]] + x[2 + w..2 + w + n] + [x[|x| - 1]]
  {
  }

  lemma {:induction false} PayloadOfPrefix(buf: string, buf': string, pos: nat, count: nat)
    requires Payload(Corrected, buf, pos, count).Value?
    requires count > 0 ==> pos + 2 * count < |buf'|
    requires forall i :: pos <= i < pos + 2 * count ==> i < |buf| && i < |buf'| && buf'[i] == buf[i]
    ensures Payload(Corrected, buf', pos, count) == Payload(Corrected, buf, pos, count)
    decreases count
  {
    if count > 0 {
      assert buf'[pos] == buf[pos] && buf'[pos + 1] == buf[pos + 1];
      PayloadOfPrefix(buf, buf', pos + 2, count - 1);
    }
  }

  /** A successful parse reads nothing at or past `Consumed(m)`: in
      particular never the terminator, and never an index at or past the
      buffer length. Any buffer that agrees on those characters and is at
      least as long parses to the same frame. */
  lemma ParseFrameReadsOnlyConsumed(buf: string, buf': string, m: CanMessage)
    requires ParseFrame(buf) == Some(m)
    requires |buf'| > Consumed(m)
    requires buf'[..Consumed(m)] == buf[..Consumed(m)]
    ensures ParseFrame(buf') == Some(m)
  {
    var w := IdDigits(m.extd);
    var c := Consumed(m);
    ParseFrameParts(buf, m);
    assert forall i :: 0 <= i < c ==> buf'[i] == buf[i] by {
      forall i | 0 <= i < c
        ensures buf'[i] == buf[i]
      {
        assert buf'[..c][i] == buf[..c][i];
      }
    }
    assert buf'[1..1 + w] == buf[1..1 + w];
    PayloadOfPrefix(buf, buf', 2 + w, m.dlc);
    ParseFrameFromParts(buf, buf', m);
  }

  lemma ParseFrameFromParts(buf: string, buf': string, m: CanMessage)
    requires ParseFrame(buf) == Some(m)
    requires |buf'| >= MinLen(m.extd) + 2 * m.dlc
    requires buf'[0] == buf[0] && buf'[1 + IdDigits(m.extd)] == buf[1 + IdDigits(m.extd)]
    requires Field(Corrected, buf'[1..1 + IdDigits(m.extd)]) == Value(m.identifier)
    requires Payload(Corrected, buf', 2 + IdDigits(m.extd), m.dlc) == Value(m.data)
    ensures ParseFrame(buf') == Some(m)
  {
    assert ParseWith(Corrected, buf) == Value(m);
    ParseParts(Corrected, buf, m);
    ParseOfParts(Corrected, buf', m);
  }

  /** Every character of `buf[lo..hi)` is a hexadecimal digit. */
  predicate DigitsBetween(buf: string, lo: nat, hi: nat) {
    lo <= hi <= |buf| && forall i :: lo <= i < hi ==> IsHexDigit(buf[i])
  }

  /** On a run of genuine digits the two decoders read the same number. */
  lemma {:induction false} FieldOnDigits(s: string)
    requires forall i :: 0 <= i < |s| ==> IsHexDigit(s[i])
    ensures Field(Corrected, s).Value? && Field(AsWritten, s) == Field(Corrected, s)
    decreases |s|
  {
    if |s| > 0 {
      var prefix := s[..|s| - 1];
      assert forall i :: 0 <= i < |prefix| ==> IsHexDigit(prefix[i]) by {
        forall i | 0 <= i < |prefix|
          ensures IsHexDigit(prefix[i])
        {
          assert prefix[i] == s[i];
        }
      }
      FieldOnDigits(prefix);
      LutAgreesOnHexDigits(s[|s| - 1]);
    }
  }

  /** The strict decoder reads a field only when all of it is digits. */
  lemma FieldHexDigits(s: string)
    requires Field(Corrected, s).Value?
    ensures forall i :: 0 <= i < |s| ==> IsHexDigit(s[i])
  {
    forall i | 0 <= i < |s|
      ensures IsHexDigit(s[i])
    {
      FieldDigits(s, Field(Corrected, s).value, i);
    }
  }

  /** On genuine digits the two decoders read the same payload. */
  lemma {:induction false} PayloadOnDigits(buf: string, pos: nat, count: nat)
    requires pos + 2 * count <= |buf| - 1
    requires forall i :: pos <= i < pos + 2 * count ==> IsHexDigit(buf[i])
    ensures Payload(Corrected, buf, pos, count).Value?
    ensures Payload(AsWritten, buf, pos, count) == Payload(Corrected, buf, pos, count)
    decreases count
  {
    if count > 0 {
      PayloadOnDigits(buf, pos + 2, count - 1);
      LutAgreesOnHexDigits(buf[pos]);
      LutAgreesOnHexDigits(buf[pos + 1]);
      PayloadStep(Corrected, buf, pos, count);
      PayloadStep(AsWritten, buf, pos, count);
    }
  }

  /** The strict payload loop reads only digits. */
  lemma {:induction false} PayloadHexDigits(buf: string, pos: nat, count: nat, data: seq<Byte>)
    requires Payload(Corrected, buf, pos, count) == Value(data)
    ensures count > 0 ==> pos + 2 * count <= |buf| - 1
    ensures forall i :: pos <= i < pos + 2 * count ==> IsHexDigit(buf[i])
    decreases count
  {
    if count > 0 {
      PayloadHead(Corrected, buf, pos, count, data);
      PayloadHexDigits(buf, pos + 2, count - 1, data[1..]);
    }
  }

  /** The digits a parse of `m` reads, split into identifier, length
      digit and payload. */
  lemma DigitsOfParts(buf: string, m: CanMessage)
    requires |buf| >= MinLen(m.extd) + 2 * m.dlc
    ensures DigitsBetween(buf, 1, Consumed(m)) <==>
      DigitsBetween(buf, 1, 1 + IdDigits(m.extd))
      && IsHexDigit(buf[1 + IdDigits(m.extd)])
      && DigitsBetween(buf, 2 + IdDigits(m.extd), 2 + IdDigits(m.extd) + 2 * m.dlc)
  {
  }

  /** A run of digits in a line, as a slice of its own. */
  lemma SliceDigits(buf: string, lo: nat, hi: nat)
    requires lo <= hi <= |buf|
    ensures DigitsBetween(buf, lo, hi) <==> forall i :: 0 <= i < hi - lo ==> IsHexDigit(buf[lo..hi][i])
  {
    if forall i :: 0 <= i < hi - lo ==> IsHexDigit(buf[lo..hi][i]) {
      forall i | lo <= i < hi
        ensures IsHexDigit(buf[i])
      {
        assert buf[i] == buf[lo..hi][i - lo];
      }
    }
  }

  /** A frame the strict parser accepts is one the source's parser accepts
      too, with the same result, read from digits only. */
  lemma StrictIsAsWritten(buf: string, m: CanMessage)
    requires ParseFrame(buf) == Some(m)
    ensures ParseFrameAsWritten(buf) == Value(m) && DigitsBetween(buf, 1, Consumed(m))
  {
    var w := IdDigits(m.extd);
    assert ParseWith(Corrected, buf) == Value(m);
    ParseParts(Corrected, buf, m);
    FieldHexDigits(buf[1..1 + w]);
    SliceDigits(buf, 1, 1 + w);
    FieldOnDigits(buf[1..1 + w]);
    LutAgreesOnHexDigits(buf[1 + w]);
    PayloadHexDigits(buf, 2 + w, m.dlc, m.data);
    PayloadOnDigits(buf, 2 + w, m.dlc);
    ParseOfParts(AsWritten, buf, m);
    DigitsOfParts(buf, m);
  }

  /** A frame the source's parser reads from digits only is one the strict
      parser accepts, with the same result. */
  lemma AsWrittenOnDigitsIsStrict(buf: string, m: CanMessage)
    requires ParseFrameAsWritten(buf) == Value(m)
    requires DigitsBetween(buf, 1, Consumed(m))
    ensures ParseFrame(buf) == Some(m)
  {
    var w := IdDigits(m.extd);
    ParseParts(AsWritten, buf, m);
    DigitsOfParts(buf, m);
    SliceDigits(buf, 1, 1 + w);
    FieldOnDigits(buf[1..1 + w]);
    LutAgreesOnHexDigits(buf[1 + w]);
    PayloadOnDigits(buf, 2 + w, m.dlc);
    ParseOfParts(Corrected, buf, m);
  }

  /** The corrected parser only narrows the source's: it accepts exactly
      the frames the source reads without undefined behaviour from genuine
      hexadecimal digits, and yields the same frame for them. */
  lemma ParseFrameIsStrictAsWritten(buf: string, m: CanMessage)
    ensures ParseFrame(buf) == Some(m)
      <==> ParseFrameAsWritten(buf) == Value(m) && DigitsBetween(buf, 1, Consumed(m))
  {
    if ParseFrame(buf) == Some(m) {
      StrictIsAsWritten(buf, m);
    }
    if ParseFrameAsWritten(buf) == Value(m) && DigitsBetween(buf, 1, Consumed(m)) {
      AsWrittenOnDigitsIsStrict(buf, m);
    }
  }

  /** The source's table reads `':'` as the digit 0, so a line of
      non-digits is taken for the frame of identifier 0; the strict parser
      refuses it. */
  lemma AsWrittenAliasesNonDigits()
    ensures ParseFrameAsWritten("t:::0\r") == Value(CanMessage(false, false, 0, 0, []))
    ensures ParseFrameAsWritten("t0000\r") == Value(CanMessage(false, false, 0, 0, []))
    ensures ParseFrame("t:::0\r") == None
  {
    LutAliasesNonDigits(':');
    LutAgreesOnHexDigits('0');
    assert Field(AsWritten, ":::") == Value(0) by {
      assert ":::"[..2] == "::";
      assert "::"[..1] == ":";
      assert ":"[..0] == "";
    }
    assert Field(AsWritten, "000") == Value(0) by {
      assert "000"[..2] == "00";
      assert "00"[..1] == "0";
      assert "0"[..0] == "";
    }
    assert "t:::0\r"[1..4] == ":::";
    assert "t0000\r"[1..4] == "000";
  }

  /** A `'g'` indexes the source's 55-entry table one past its end. */
  lemma AsWrittenReadsOutsideTable()
    ensures ParseFrameAsWritten("t12g0\r") == Undefined
    ensures ParseFrame("t12g0\r") == None
  {
    var buf := "t12g0\r";
    assert buf[1..4] == "12g";
    assert Field(AsWritten, "12").Value? by {
      FieldOnDigits("12");
    }
    assert Field(AsWritten, "12g") == Undefined by {
      assert "12g"[..2] == "12";
    }
    assert Field(Corrected, "12g") == Fail by {
      assert "12g"[..2] == "12";
    }
  }

  /** A length digit of 9 passes the length check and the payload loop
      then writes a ninth byte past the 8-byte data array; the strict
      parser refuses the line. */
  lemma AsWrittenOverrunsData()
    ensures ParseFrameAsWritten("t1239000000000000000000\r") == Undefined
    ensures ParseFrame("t1239000000000000000000\r") == None
  {
    var buf := "t1239000000000000000000\r";
    assert |buf| == 24;
    assert buf[1] == '1' && buf[2] == '2' && buf[3] == '3' && buf[4] == '9';
    assert buf[1..4] == "123";
    LutAgreesOnHexDigits('9');
    FieldOnDigits("123");
  }
}

=== FILE: framer.dfy ===
/** The command framer of `slcanRxTask` (main/slcan.c:369-414): each chunk
    read from the serial line is cut at its CRs into commands, the first
    of them behind whatever was left over from earlier chunks, and what
    follows the last CR is kept for the next chunk. */
module Framer {
  import opened Base

  /** `SLCAN_MAX_CMD_LEN`, `strlen("T1FFFFFFF81122334455667788\r")`: the
      size of the read buffer and of the remainder buffer. */
  const MaxCmdLen: nat := 27

  /** No CR anywhere in `s`. */
  predicate NoCr(s: string) {
    forall i :: 0 <= i < |s| ==> s[i] != CR
  }

  /** A command as the dispatcher receives it: one CR, at its end. */
  predicate IsLine(s: string) {
    EndsWithCr(s) && NoCr(s[..|s| - 1])
  }

  /** Commands to run, in order, and the characters kept for later. */
  datatype Split = Split(commands: seq<string>, remainder: string)

  function Flatten(commands: seq<string>): string
    decreases |commands|
  {
    if |commands| == 0 then [] else commands[0] + Flatten(commands[1..])
  }

  /** Every one of `commands` is a line. */
  predicate AllLines(commands: seq<string>) {
    forall i :: 0 <= i < |commands| ==> IsLine(commands[i])
  }

  /** What a split promises about the text it was cut from. */
  predicate SplitOf(sp: Split, s: string) {
    Flatten(sp.commands) + sp.remainder == s && AllLines(sp.commands) && NoCr(sp.remainder)
  }

  /** `memchr(s, '\r', |s|)`: the position of the first CR. */
  function FirstCr(s: string): (r: Option<nat>)
    ensures r.Some? ==> r.value < |s| && s[r.value] == CR
    decreases |s|
  {
    if |s| == 0 then None
    else if s[0] == CR then Some(0)
    else
      match FirstCr(s[1..])
      case None => None
      case Some(k) => Some(k + 1)
  }

  /** `FirstCr` finds the first CR, and misses none. */
  lemma {:induction false} FirstCrIsFirst(s: string)
    ensures FirstCr(s).Some? ==> NoCr(s[..FirstCr(s).value])
    ensures FirstCr(s).None? ==> NoCr(s)
    decreases |s|
  {
    if |s| > 0 && s[0] != CR {
      FirstCrIsFirst(s[1..]);
      if FirstCr(s[1..]).Some? {
        var k := FirstCr(s[1..]).value;
        var t := s[..k + 1];
        forall i | 0 <= i < |t|
          ensures t[i] != CR
        {
          if i > 0 {
            assert t[i] == s[1..][..k][i - 1];
          }
        }
      } else {
        forall i | 0 <= i < |s|
          ensures s[i] != CR
        {
          if i > 0 {
            assert s[i] == s[1..][i - 1];
          }
        }
      }
    }
  }

  /** A CR with none before it is the one `FirstCr` finds. */
  lemma {:induction false} FirstCrOfPrefix(s: string, k: nat)
    requires k < |s| && s[k] == CR && NoCr(s[..k])
    ensures FirstCr(s) == Some(k)
    decreases k
  {
    if k > 0 {
      assert s[0] == s[..k][0];
      var t := s[1..][..k - 1];
      forall i | 0 <= i < |t|
        ensures t[i] != CR
      {
        assert t[i] == s[..k][i + 1];
      }
      FirstCrOfPrefix(s[1..], k - 1);
    }
  }

  /** A stream cut at every CR: the reference the framer is measured
      against. */
  function SplitLines(s: string): Split
    decreases |s|
  {
    match FirstCr(s)
    case None => Split([], s)
    case Some(k) => Prepend([s[..k + 1]], SplitLines(s[k + 1..]))
  }

  function Prepend(commands: seq<string>, sp: Split): Split {
    Split(commands + sp.commands, sp.remainder)
  }

  lemma PrependPrepend(a: seq<string>, b: seq<string>, sp: Split)
    ensures Prepend(a + b, sp) == Prepend(a, Prepend(b, sp))
  {
    assert (a + b) + sp.commands == a + (b + sp.commands);
  }

  lemma FlattenCons(c: string, cs: seq<string>)
    ensures Flatten([c] + cs) == c + Flatten(cs)
  {
    assert ([c] + cs)[1..] == cs;
  }

  /** The first line of a split and the rest of it. */
  lemma PrependLine(s: string, k: nat, rest: Split)
    requires FirstCr(s) == Some(k)
    requires SplitOf(rest, s[k + 1..])
    ensures SplitOf(Prepend([s[..k + 1]], rest), s)
  {
    var line := s[..k + 1];
    var sp := Prepend([line], rest);
    FirstCrIsFirst(s);
    assert line[..k] == s[..k];
    FlattenCons(line, rest.commands);
    assert s == line + s[k + 1..];
    assert forall i :: 1 <= i < |sp.commands| ==> sp.commands[i] == rest.commands[i - 1];
  }

  /** The reference cut keeps its promise. */
  lemma {:induction false} SplitLinesSplits(s: string)
    ensures SplitOf(SplitLines(s), s)
    decreases |s|
  {
    FirstCrIsFirst(s);
    match FirstCr(s)
    case None =>
    case Some(k) =>
      SplitLinesSplits(s[k + 1..]);
      PrependLine(s, k, SplitLines(s[k + 1..]));
  }

  /** A split is determined by what it promises: the text cut at every CR
      is the only one. */
  lemma {:induction false} SplitLinesUnique(s: string, sp: Split)
    requires SplitOf(sp, s)
    ensures sp == SplitLines(s)
    decreases |s|
  {
    if |sp.commands| == 0 {
      assert s == sp.remainder;
      FirstCrNone(s);
    } else {
      var first := sp.commands[0];
      var rest := Split(sp.commands[1..], sp.remainder);
      var k := |first| - 1;
      assert sp.commands == [first] + rest.commands;
      FlattenCons(first, rest.commands);
      assert s == first + (Flatten(rest.commands) + rest.remainder);
      assert IsLine(first);
      assert s[..k] == first[..k] && s[k] == first[k];
      FirstCrOfPrefix(s, k);
      assert s[k + 1..] == Flatten(rest.commands) + rest.remainder;
      assert forall i :: 0 <= i < |rest.commands| ==> rest.commands[i] == sp.commands[i + 1];
      SplitLinesUnique(s[k + 1..], rest);
      assert s[..k + 1] == first;
    }
  }

  lemma FirstCrNone(s: string)
    requires NoCr(s)
    ensures FirstCr(s) == None
  {
  }

  /** One chunk, with the remainder appended to as the comment at
      main/slcan.c:408 describes: the first command of the chunk is the
      old remainder followed by the chunk up to its first CR; with no CR
      the whole chunk is added behind the remainder. */
  function Feed(remainder: string, chunk: string): (r: Split)
    ensures Flatten(r.commands) + r.remainder == remainder + chunk
    ensures |r.commands| == 0 <==> FirstCr(chunk).None?
    ensures FirstCr(chunk).Some? ==> NoCr(r.remainder) && AllLines(r.commands[1..])
    ensures FirstCr(chunk).Some? ==> EndsWithCr(r.commands[0])
  {
    match FirstCr(chunk)
    case None => Split([], remainder + chunk)
    case Some(k) =>
      var rest := SplitLines(chunk[k + 1..]);
      SplitLinesSplits(chunk[k + 1..]);
      FirstLineThenSplit(remainder, chunk, k, rest);
      Prepend([remainder + chunk[..k + 1]], rest)
  }

  /** The remainder and the chunk up to a CR, in front of a split of the
      rest of the chunk. */
  lemma FirstLineThenSplit(remainder: string, chunk: string, k: nat, rest: Split)
    requires k < |chunk| && SplitOf(rest, chunk[k + 1..])
    ensures var r := Prepend([remainder + chunk[..k + 1]], rest);
      && Flatten(r.commands) + r.remainder == remainder + chunk
      && |r.commands| > 0 && NoCr(r.remainder) && AllLines(r.commands[1..])
  {
    var line := remainder + chunk[..k + 1];
    FlattenCons(line, rest.commands);
    assert chunk == chunk[..k + 1] + chunk[k + 1..];
    assert ([line] + rest.commands)[1..] == rest.commands;
  }

  lemma FeedStep(pending: string, x: string, k: nat)
    requires FirstCr(x) == Some(k)
    ensures Feed(pending, x) == Prepend([pending + x[..k + 1]], Feed([], x[k + 1..]))
  {
    var rest := x[k + 1..];
    assert Feed(pending, x) == Prepend([pending + x[..k + 1]], SplitLines(rest));
    FeedEmpty(rest);
  }

  lemma FeedEmpty(x: string)
    ensures Feed([], x) == SplitLines(x)
  {
    match FirstCr(x)
    case None =>
      assert [] + x == x;
    case Some(k) =>
      assert [] + x[..k + 1] == x[..k + 1];
  }

  /** The source's CR loop with the corrected save at its end: `start`
      plays `pCmdStart`, `pending` the remainder not yet prepended to a
      command, and what is left of the chunk is appended behind the
      remainder rather than copied over it. */
  method FeedLoop(remainder: string, chunk: string) returns (commands: seq<string>, kept: string)
    ensures Split(commands, kept) == Feed(remainder, chunk)
  {
    commands := [];
    var pending := remainder;
    var start := 0;
    var end := FirstCr(chunk);
    assert chunk[start..] == chunk;
    while end.Some?
      invariant start <= |chunk|
      invariant end == FirstCr(chunk[start..])
      invariant Prepend(commands, Feed(pending, chunk[start..])) == Feed(remainder, chunk)
      decreases |chunk| - start
    {
      var k := end.value;
      var command := pending + chunk[start..start + k + 1];
      FeedLoopStep(commands, pending, chunk, start, k);
      commands := commands + [command];
      pending := [];
      start := start + k + 1;
      end := FirstCr(chunk[start..]);
    }
    kept := pending + chunk[start..];
  }

  /** One turn of the loop: the command up to the next CR moves from the
      chunk to the commands run. */
  lemma FeedLoopStep(commands: seq<string>, pending: string, chunk: string, start: nat, k: nat)
    requires start <= |chunk| && FirstCr(chunk[start..]) == Some(k)
    ensures start + k + 1 <= |chunk|
    ensures Prepend(commands, Feed(pending, chunk[start..]))
      == Prepend(commands + [pending + chunk[start..start + k + 1]], Feed([], chunk[start + k + 1..]))
  {
    var x := chunk[start..];
    FeedStep(pending, x, k);
    assert x[..k + 1] == chunk[start..start + k + 1];
    assert x[k + 1..] == chunk[start + k + 1..];
    PrependPrepend(commands, [pending + x[..k + 1]], Feed([], x[k + 1..]));
  }

  /** What the corrected step promises: the commands it runs and the
      characters it keeps are the remainder followed by the chunk, every
      command ends at its only CR, and nothing kept holds a CR. */
  lemma FeedSplits(remainder: string, chunk: string)
    requires NoCr(remainder)
    ensures SplitOf(Feed(remainder, chunk), remainder + chunk)
  {
    FeedIsSplitLines(remainder, chunk);
    SplitLinesSplits(remainder + chunk);
  }

  /** The corrected step is the reference cut of the remainder followed by
      the chunk: a command split across chunks is run whole, once. */
  lemma FeedIsSplitLines(remainder: string, chunk: string)
    requires NoCr(remainder)
    ensures Feed(remainder, chunk) == SplitLines(remainder + chunk)
  {
    FirstCrIsFirst(chunk);
    if FirstCr(chunk).None? {
      FeedNoCr(remainder, chunk);
    } else {
      FeedCr(remainder, chunk, FirstCr(chunk).value);
    }
  }

  lemma FeedNoCr(remainder: string, chunk: string)
    requires NoCr(remainder) && NoCr(chunk)
    ensures Feed(remainder, chunk) == SplitLines(remainder + chunk)
  {
    var s := remainder + chunk;
    assert NoCr(s) by {
      forall i | |remainder| <= i < |s|
        ensures s[i] != CR
      {
        assert s[i] == chunk[i - |remainder|];
      }
    }
    FirstCrNone(chunk);
    FirstCrNone(s);
  }

  lemma FeedCr(remainder: string, chunk: string, k: nat)
    requires NoCr(remainder) && FirstCr(chunk) == Some(k) && NoCr(chunk[..k])
    ensures Feed(remainder, chunk) == SplitLines(remainder + chunk)
  {
    var s := remainder + chunk;
    var j := |remainder| + k;
    assert s[j] == CR;
    var prefix := s[..j];
    assert prefix == remainder + chunk[..k];
    forall i | |remainder| <= i < j
      ensures prefix[i] != CR
    {
      assert prefix[i] == chunk[..k][i - |remainder|];
    }
    FirstCrOfPrefix(s, j);
    assert s[..j + 1] == remainder + chunk[..k + 1];
    assert s[j + 1..] == chunk[k + 1..];
    SplitLinesStep(s, j);
  }

  lemma SplitLinesStep(s: string, k: nat)
    requires FirstCr(s) == Some(k)
    ensures SplitLines(s) == Prepend([s[..k + 1]], SplitLines(s[k + 1..]))
  {
  }

  /** Chunk after chunk, each command run when its CR arrives. */
  function FeedAll(remainder: string, chunks: seq<string>): (r: Split)
    ensures Flatten(r.commands) + r.remainder == remainder + Concat(chunks)
    decreases |chunks|
  {
    if |chunks| == 0 then Split([], remainder)
    else
      var first := Feed(remainder, chunks[0]);
      var rest := FeedAll(first.remainder, chunks[1..]);
      FlattenAppend(first.commands, rest.commands);
      StreamAfterChunk(remainder, chunks, Flatten(first.commands), first.remainder);
      Assoc(Flatten(first.commands), Flatten(rest.commands), rest.remainder);
      Prepend(first.commands, rest)
  }

  function Concat(chunks: seq<string>): string
    decreases |chunks|
  {
    if |chunks| == 0 then [] else chunks[0] + Concat(chunks[1..])
  }

  lemma {:induction false} FlattenAppend(a: seq<string>, b: seq<string>)
    ensures Flatten(a + b) == Flatten(a) + Flatten(b)
    decreases |a|
  {
    if |a| > 0 {
      FlattenAppend(a[1..], b);
      assert (a + b)[1..] == a[1..] + b;
      assert Flatten(a + b) == a[0] + Flatten(a[1..] + b);
      Assoc(a[0], Flatten(a[1..]), Flatten(b));
    } else {
      assert a + b == b;
    }
  }

  /** However the stream is cut into chunks, the commands run are the
      stream cut at every CR: the framer's output depends only on the
      characters received. */
  lemma {:induction false} FeedAllIsSplitLines(remainder: string, chunks: seq<string>)
    requires NoCr(remainder)
    ensures FeedAll(remainder, chunks) == SplitLines(remainder + Concat(chunks))
    decreases |chunks|
  {
    var s := remainder + Concat(chunks);
    if |chunks| == 0 {
      assert s == remainder;
      FirstCrNone(s);
    } else {
      var first := Feed(remainder, chunks[0]);
      var t := first.remainder + Concat(chunks[1..]);
      FeedThenSplit(remainder, chunks);
      FeedAllIsSplitLines(first.remainder, chunks[1..]);
      SplitLinesUnique(s, Prepend(first.commands, SplitLines(t)));
    }
  }

  /** The commands of one chunk in front of the reference cut of the rest
      of the stream are a split of the whole stream. */
  lemma FeedThenSplit(remainder: string, chunks: seq<string>)
    requires NoCr(remainder) && |chunks| > 0
    ensures NoCr(Feed(remainder, chunks[0]).remainder)
    ensures var first := Feed(remainder, chunks[0]);
      SplitOf(Prepend(first.commands, SplitLines(first.remainder + Concat(chunks[1..]))), remainder + Concat(chunks))
  {
    var first := Feed(remainder, chunks[0]);
    FeedSplits(remainder, chunks[0]);
    var t := first.remainder + Concat(chunks[1..]);
    SplitLinesSplits(t);
    var s := remainder + Concat(chunks);
    StreamAfterChunk(remainder, chunks, Flatten(first.commands), first.remainder);
    ConcatSplits(first.commands, SplitLines(t), t, s);
  }

  lemma StreamAfterChunk(remainder: string, chunks: seq<string>, done: string, kept: string)
    requires |chunks| > 0 && done + kept == remainder + chunks[0]
    ensures remainder + Concat(chunks) == done + (kept + Concat(chunks[1..]))
  {
    assert Concat(chunks) == chunks[0] + Concat(chunks[1..]);
    Assoc(remainder, chunks[0], Concat(chunks[1..]));
    Assoc(done, kept, Concat(chunks[1..]));
  }

  lemma Assoc(a: string, b: string, c: string)
    ensures a + (b + c) == (a + b) + c
  {
  }

  /** Lines in front of a split of `t` make a split of the lines
      followed by `t`. */
  lemma ConcatSplits(lines: seq<string>, tail: Split, t: string, s: string)
    requires AllLines(lines) && SplitOf(tail, t) && s == Flatten(lines) + t
    ensures SplitOf(Prepend(lines, tail), s)
  {
    var sp := Prepend(lines, tail);
    FlattenAppend(lines, tail.commands);
    assert forall i :: |lines| <= i < |sp.commands| ==> sp.commands[i] == tail.commands[i - |lines|];
  }

  /** The remainder buffer of the source: `bufRemainder`, always 27
      characters, of which the first `length` (`bufRemainderLen`) count. */
  datatype Store = Store(bytes: string, length: nat)

  predicate StoreValid(st: Store) {
    |st.bytes| == MaxCmdLen
  }

  /** The characters the remainder buffer stands for, when its length is
      within the array. */
  function Content(st: Store): (s: string)
    requires StoreValid(st) && st.length <= MaxCmdLen
    ensures |s| == st.length
  {
    st.bytes[..st.length]
  }

  /** The save step as written: the tail is copied to the start of the
      buffer and its length added to the length already there. */
  function Save(st: Store, tail: string): (st': Store)
    requires StoreValid(st) && |tail| <= MaxCmdLen
    ensures StoreValid(st')
    ensures st'.length == st.length + |tail| && st'.bytes[..|tail|] == tail
    ensures st'.bytes[|tail|..] == st.bytes[|tail|..]
  {
    Store(tail + st.bytes[|tail|..], st.length + |tail|)
  }

  /** One chunk as the source handles it. With a CR in the chunk the
      first command copies `length` characters out of the 27-character
      remainder buffer, which reads past the array once `length` exceeds
      it; nothing else in the step can go wrong. */
  function FeedAsWritten(st: Store, chunk: string): (r: Outcome<(seq<string>, Store)>)
    requires StoreValid(st) && |chunk| <= MaxCmdLen
    ensures r.Value? ==> StoreValid(r.value.1)
    ensures r.Value? ==> forall i :: 0 <= i < |r.value.0| ==> EndsWithCr(r.value.0[i])
    ensures r.Undefined? <==> FirstCr(chunk).Some? && st.length > MaxCmdLen
  {
    match FirstCr(chunk)
    case None => Value(([], Save(st, chunk)))
    case Some(k) =>
      if st.length > MaxCmdLen then Undefined
      else
        var rest := SplitLines(chunk[k + 1..]);
        SplitLinesShorter(chunk[k + 1..]);
        SplitLinesSplits(chunk[k + 1..]);
        Value(([st.bytes[..st.length] + chunk[..k + 1]] + rest.commands, Save(st.(length := 0), rest.remainder)))
  }

  /** What is kept of a text is no longer than the text. */
  lemma SplitLinesShorter(s: string)
    ensures |SplitLines(s).remainder| <= |s|
  {
    SplitLinesSplits(s);
    var sp := SplitLines(s);
    assert |Flatten(sp.commands) + sp.remainder| == |s|;
  }

  /** Where the source's step agrees with the corrected one: when nothing
      is pending, or when the chunk holds a CR. */
  lemma FeedAsWrittenAgrees(st: Store, chunk: string)
    requires StoreValid(st) && st.length <= MaxCmdLen && |chunk| <= MaxCmdLen
    requires st.length == 0 || !NoCr(chunk)
    ensures FeedAsWritten(st, chunk).Value?
    ensures FeedAsWritten(st, chunk).value.1.length <= MaxCmdLen
    ensures Split(FeedAsWritten(st, chunk).value.0, Content(FeedAsWritten(st, chunk).value.1))
      == Feed(Content(st), chunk)
  {
    FirstCrIsFirst(chunk);
    match FirstCr(chunk)
    case None =>
      var st' := Save(st, chunk);
      assert Content(st) == [];
      assert Content(st') == chunk;
    case Some(k) =>
      var rest := SplitLines(chunk[k + 1..]);
      SplitLinesShorter(chunk[k + 1..]);
      var st' := Save(st.(length := 0), rest.remainder);
      assert Content(st') == rest.remainder;
  }

  /** The source loses the start of a command typed one character per
      chunk. The remainder buffer starts out uninitialised (`blank`):
      after `S` and `5` it holds `5` followed by whatever was there, so
      the command run at the CR begins with `5`; the corrected framer runs
      `S5`. */
  lemma FeedAsWrittenLosesRemainder(blank: string)
    requires |blank| == MaxCmdLen
    ensures var one := FeedAsWritten(Store(blank, 0), "S");
      && one == Value(([], Store("S" + blank[1..], 1)))
      && var two := FeedAsWritten(one.value.1, "5");
      && two == Value(([], Store("5" + blank[1..], 2)))
      && FeedAsWritten(two.value.1, [CR]) == Value((["5" + [blank[1], CR]], Store("5" + blank[1..], 0)))
    ensures FeedAll([], ["S", "5", [CR]]) == Split(["S5" + [CR]], [])
  {
    assert FirstCr("S") == None;
    assert FirstCr("5") == None;
    assert FirstCr([CR]) == Some(0);
    assert [CR][1..] == [] && [CR][..1] == [CR];
    var two := Store("5" + blank[1..], 2);
    assert two.bytes[..2] == "5" + [blank[1]];
    assert SplitLines([]) == Split([], []);
    assert Save(two.(length := 0), []) == Store(two.bytes, 0);
    assert two.bytes[..two.length] + [CR][..1] == "5" + [blank[1], CR];
    var rest := SplitLines([CR][1..]);
    assert rest == Split([], []);
    assert ["5" + [blank[1], CR]] + rest.commands == ["5" + [blank[1], CR]];
    assert FeedAsWritten(two, [CR]) == Value((["5" + [blank[1], CR]], Store(two.bytes, 0)));
    FeedAllExample();
  }

  lemma FeedAllExample()
    ensures FeedAll([], ["S", "5", [CR]]) == Split(["S5" + [CR]], [])
  {
    assert FirstCr("S") == None;
    assert FirstCr("5") == None;
    assert FirstCr([CR]) == Some(0);
    assert [CR][1..] == [] && [CR][..1] == [CR];
    assert SplitLines([]) == Split([], []);
    assert Feed([], "S") == Split([], "S");
    assert Feed("S", "5") == Split([], "S5");
    assert Feed("S5", [CR]) == Split(["S5" + [CR]], []);
    assert ["S", "5", [CR]][1..] == ["5", [CR]];
    assert ["5", [CR]][1..] == [[CR]];
    assert [[CR]][1..] == [];
    assert FeedAll("S5", [[CR]]) == Split(["S5" + [CR]], []);
    assert FeedAll("S", ["5", [CR]]) == Split(["S5" + [CR]], []);
  }

  /** Nothing bounds the remainder length: a full chunk without CR
      followed by one more character leaves a length of 28, and the CR
      that follows makes the source copy 28 characters out of the
      27-character buffer. */
  lemma FeedAsWrittenOverrunsStore(blank: string, long: string)
    requires |blank| == MaxCmdLen && |long| == MaxCmdLen && NoCr(long)
    ensures var one := FeedAsWritten(Store(blank, 0), long);
      && one.Value?
      && var two := FeedAsWritten(one.value.1, "A");
      && two.Value? && two.value.1.length == MaxCmdLen + 1
      && FeedAsWritten(two.value.1, [CR]) == Undefined
  {
    FirstCrNone(long);
    assert FirstCr("A") == None;
    assert FirstCr([CR]) == Some(0);
  }
}

=== FILE: hex.dfy ===
/** Hexadecimal digits as the SLCAN engine reads and writes them
    (main/slcan.c:27-38): the `HEX2ASCII` table the encoder indexes, the
    `ASCII2HEX` table the decoder indexes, a strict digit decoder that
    replaces it, and fixed-width fields of digits, most significant first. */
module Hex {
  import opened Base

  type Nibble = x: int | 0 <= x < 16

  /** `HEX2ASCII_LUT`: the only digits the encoder ever emits. */
  const HexAlphabet: string := "0123456789ABCDEF"

  /** `ASCII2HEX_LUT`: 55 entries indexed by `c - '0'`; the positions of
      `'0'..'9'`, `'A'..'F'` and `'a'..'f'` hold their values, every other
      position holds 0. */
  const Ascii2HexLut: seq<Nibble> :=
    [0, 1, 2, 3, 4, 5, 6, 7, 8, 9]
    + [0, 0, 0, 0, 0, 0, 0]
    + [10, 11, 12, 13, 14, 15]
    + [0, 0, 0, 0, 0, 0, 0, 0, 0, 0, 0, 0, 0, 0, 0, 0, 0, 0, 0, 0, 0, 0, 0, 0, 0, 0]
    + [10, 11, 12, 13, 14, 15]

  function Pow16(n: nat): (p: nat)
    ensures p >= 1
  {
    if n == 0 then 1 else 16 * Pow16(n - 1)
  }

  /** `HEX2ASCII(x)` for a nibble `x`: the digit `HexAlphabet[x]` (see
      `HexDigitIsTableEntry`). */
  function HexDigit(n: Nibble): (c: char)
    ensures IsUpperHexDigit(c)
  {
    if n < 10 then ('0' as int + n) as char else ('A' as int + n - 10) as char
  }

  predicate IsUpperHexDigit(c: char) {
    '0' <= c <= '9' || 'A' <= c <= 'F'
  }

  predicate IsHexDigit(c: char) {
    IsUpperHexDigit(c) || 'a' <= c <= 'f'
  }

  /** The value of a hexadecimal digit of either case; no value for any
      other character. */
  function DigitValue(c: char): (r: Option<Nibble>)
    ensures r.Some? <==> IsHexDigit(c)
  {
    if '0' <= c <= '9' then Some(c as int - '0' as int)
    else if 'A' <= c <= 'F' then Some(c as int - 'A' as int + 10)
    else if 'a' <= c <= 'f' then Some(c as int - 'a' as int + 10)
    else None
  }

  /** Which digit decoder a parse uses: the source's table lookup, or the
      strict decoder that refuses non-digits. */
  datatype Decoding = AsWritten | Corrected

  /** `ASCII2HEX(c)`: as written it indexes the 55-entry table at
      `c - 0x30`, which is outside the table unless `'0' <= c <= 'f'`. */
  function Digit(d: Decoding, c: char): (r: Outcome<Nibble>)
    ensures d == Corrected ==> (r.Value? <==> IsHexDigit(c)) && !r.Undefined?
    ensures d == AsWritten ==> (r.Undefined? <==> !('0' <= c <= 'f')) && !r.Fail?
  {
    match d
    case AsWritten =>
      if '0' <= c <= 'f' then Value(Ascii2HexLut[c as int - '0' as int]) else Undefined
    case Corrected =>
      match DigitValue(c)
      case Some(v) => Value(v)
      case None => Fail
  }

  /** `n` as exactly `width` uppercase digits, most significant first; only
      the low `width` nibbles of `n` are written. */
  function EncodeHex(n: nat, width: nat): (s: string)
    ensures |s| == width
    decreases width
  {
    if width == 0 then [] else EncodeHex(n / 16, width - 1) + [HexDigit(n % 16)]
  }

  /** A field holds uppercase digits only. */
  lemma EncodeHexUpper(n: nat, width: nat)
    ensures forall i :: 0 <= i < width ==> IsUpperHexDigit(EncodeHex(n, width)[i])
  {
    forall i | 0 <= i < width
      ensures IsUpperHexDigit(EncodeHex(n, width)[i])
    {
      EncodeHexDigits(n, width, i);
    }
  }

  /** A run of digits read left to right, each shifted in below the ones
      before it, as `x |= ASCII2HEX(*p++) << k` does. */
  function Field(d: Decoding, s: string): (r: Outcome<nat>)
    ensures r.Value? ==> r.value < Pow16(|s|)
    ensures d == Corrected ==> !r.Undefined?
    decreases |s|
  {
    if |s| == 0 then Value(0)
    else
      match Field(d, s[..|s| - 1])
      case Fail => Fail
      case Undefined => Undefined
      case Value(high) =>
        match Digit(d, s[|s| - 1])
        case Fail => Fail
        case Undefined => Undefined
        case Value(low) => Value(high * 16 + low)
  }

  /** The digit of each nibble is the entry of `HEX2ASCII_LUT` at it. */
  lemma HexDigitIsTableEntry(n: Nibble)
    ensures HexDigit(n) == HexAlphabet[n]
  {
    if n < 8 {
      if n == 0 {} else if n == 1 {} else if n == 2 {} else if n == 3 {}
      else if n == 4 {} else if n == 5 {} else if n == 6 {} else {}
    } else {
      if n == 8 {} else if n == 9 {} else if n == 10 {} else if n == 11 {}
      else if n == 12 {} else if n == 13 {} else if n == 14 {} else {}
    }
  }

  /** The encoder's digits are exactly the characters of `HEX2ASCII_LUT`. */
  lemma UpperHexDigitsAreTable(c: char)
    ensures IsUpperHexDigit(c) <==> c in HexAlphabet
  {
    if c in HexAlphabet {
      var i :| 0 <= i < |HexAlphabet| && HexAlphabet[i] == c;
      HexDigitIsTableEntry(i);
    }
    if IsUpperHexDigit(c) {
      var n := DigitValue(c).value;
      HexDigitOfDigit(c);
      HexDigitIsTableEntry(n);
    }
  }

  /** Each emitted digit decodes back to its nibble, under either decoder. */
  lemma DigitOfHexDigit(d: Decoding, n: Nibble)
    ensures Digit(d, HexDigit(n)) == Value(n)
    ensures DigitValue(HexDigit(n)) == Some(n)
  {
    if d == AsWritten {
      LutAgreesOnHexDigits(HexDigit(n));
    }
  }

  /** An uppercase digit is the one `HEX2ASCII` emits for its own value. */
  lemma HexDigitOfDigit(c: char)
    requires IsUpperHexDigit(c)
    ensures DigitValue(c).Some? && HexDigit(DigitValue(c).value) == c
  {
  }

  /** On genuine hexadecimal digits the source's table agrees with the
      strict decoder. */
  lemma LutAgreesOnHexDigits(c: char)
    requires IsHexDigit(c)
    ensures Digit(AsWritten, c) == Value(DigitValue(c).value)
  {
    var k := c as int - '0' as int;
    if '0' <= c <= '9' {
      assert Ascii2HexLut[k] == k by {
        assert Ascii2HexLut[..10] == [0, 1, 2, 3, 4, 5, 6, 7, 8, 9];
        assert Ascii2HexLut[k] == Ascii2HexLut[..10][k];
      }
    } else if 'A' <= c <= 'F' {
      assert Ascii2HexLut[k] == k - 7 by {
        assert Ascii2HexLut[17..23] == [10, 11, 12, 13, 14, 15];
        assert Ascii2HexLut[k] == Ascii2HexLut[17..23][k - 17];
      }
    } else {
      assert Ascii2HexLut[k] == k - 39 by {
        assert Ascii2HexLut[49..55] == [10, 11, 12, 13, 14, 15];
        assert Ascii2HexLut[k] == Ascii2HexLut[49..55][k - 49];
      }
    }
  }

  /** The source's table silently reads every non-digit between `'0'` and
      `'f'` (`':'..'@'`, `'G'..'`'`) as the digit 0. */
  lemma LutAliasesNonDigits(c: char)
    requires '0' <= c <= 'f' && !IsHexDigit(c)
    ensures Digit(AsWritten, c) == Value(0)
  {
    var k := c as int - '0' as int;
    if k < 17 {
      assert Ascii2HexLut[10..17] == [0, 0, 0, 0, 0, 0, 0];
      assert Ascii2HexLut[k] == Ascii2HexLut[10..17][k - 10];
    } else {
      assert Ascii2HexLut[23..49] == [0, 0, 0, 0, 0, 0, 0, 0, 0, 0, 0, 0, 0, 0, 0, 0, 0, 0, 0, 0, 0, 0, 0, 0, 0, 0];
      assert Ascii2HexLut[k] == Ascii2HexLut[23..49][k - 23];
    }
  }

  /** Dividing by 16 and then by `Pow16(k)` is dividing by `Pow16(k + 1)`. */
  lemma DivPow16(n: nat, k: nat)
    ensures n / 16 / Pow16(k) == n / Pow16(k + 1)
  {
    var p := Pow16(k);
    var q := n / 16 / p;
    var r := n / 16 % p;
    assert n / 16 == p * q + r;
    assert n == 16 * (n / 16) + n % 16;
    assert n == (16 * p) * q + (16 * r + n % 16);
    assert 0 <= 16 * r + n % 16 < 16 * p;
    DivUnique(n, 16 * p, q, 16 * r + n % 16);
  }

  lemma DivUnique(n: nat, d: nat, q: nat, r: nat)
    requires d > 0 && n == d * q + r && r < d
    ensures n / d == q
  {
    var q' := n / d;
    if q' > q {
      MulMonotonic(d, q + 1, q');
    } else if q' < q {
      MulMonotonic(d, q' + 1, q);
    }
  }

  lemma MulMonotonic(d: nat, a: int, b: int)
    requires a <= b
    ensures d * a <= d * b
  {
  }

  /** A number below `16 * p` has fewer than `p` sixteens. */
  lemma DivBelow(n: nat, p: nat)
    requires n < 16 * p
    ensures n / 16 < p
  {
  }

  /** Digit `k` of `EncodeHex(n, width)` is nibble `width-1-k` of `n`:
      `HEX2ASCII(n >> 4*(width-1-k) & 0xF)`, as the encoder writes each
      identifier digit. */
  lemma {:induction false} EncodeHexDigits(n: nat, width: nat, k: nat)
    requires k < width
    ensures EncodeHex(n, width)[k] == HexDigit(n / Pow16(width - 1 - k) % 16)
    decreases width
  {
    if k == width - 1 {
      assert EncodeHex(n, width)[k] == HexDigit(n % 16);
    } else {
      EncodeHexDigits(n / 16, width - 1, k);
      DivPow16(n, width - 2 - k);
      assert EncodeHex(n, width)[k] == EncodeHex(n / 16, width - 1)[k];
    }
  }

  /** Reading back a field the encoder wrote yields the number, under
      either decoder, when it fits the width. */
  lemma {:induction false} FieldOfEncodeHex(d: Decoding, n: nat, width: nat)
    requires n < Pow16(width)
    ensures Field(d, EncodeHex(n, width)) == Value(n)
    decreases width
  {
    var s := EncodeHex(n, width);
    if width > 0 {
      var prefix := s[..|s| - 1];
      assert prefix == EncodeHex(n / 16, width - 1);
      assert s[|s| - 1] == HexDigit(n % 16);
      assert Field(d, prefix) == Value(n / 16) by {
        DivBelow(n, Pow16(width - 1));
        FieldOfEncodeHex(d, n / 16, width - 1);
      }
      assert Digit(d, s[|s| - 1]) == Value(n % 16) by {
        DigitOfHexDigit(d, n % 16);
      }
      var m := n / 16 * 16 + n % 16;
      assert Field(d, s) == Value(m);
      assert m == n;
    }
  }

  /** A field of uppercase digits is exactly what `EncodeHex` writes for
      the number read from it. */
  lemma {:induction false} EncodeHexOfField(s: string, n: nat)
    requires forall i :: 0 <= i < |s| ==> IsUpperHexDigit(s[i])
    requires Field(Corrected, s) == Value(n)
    ensures EncodeHex(n, |s|) == s
    decreases |s|
  {
    if |s| > 0 {
      var prefix := s[..|s| - 1];
      var last := s[|s| - 1];
      var high := Field(Corrected, prefix).value;
      var low := DigitValue(last).value;
      assert n / 16 == high && n % 16 == low by {
        assert n == high * 16 + low;
      }
      assert EncodeHex(high, |prefix|) == prefix by {
        EncodeHexOfField(prefix, high);
      }
      HexDigitOfDigit(last);
      assert s == prefix + [last];
    }
  }

  /** Digit `k` of a field read by the strict decoder is nibble
      `|s|-1-k` of the number: the most significant digit comes first. */
  lemma {:induction false} FieldDigits(s: string, n: nat, k: nat)
    requires Field(Corrected, s) == Value(n)
    requires k < |s|
    ensures DigitValue(s[k]).Some?
    ensures n / Pow16(|s| - 1 - k) % 16 == DigitValue(s[k]).value
    decreases |s|
  {
    var prefix := s[..|s| - 1];
    var high := Field(Corrected, prefix).value;
    var low := DigitValue(s[|s| - 1]).value;
    assert n == high * 16 + low;
    assert n / 16 == high && n % 16 == low;
    if k < |s| - 1 {
      FieldDigits(prefix, high, k);
      DivPow16(n, |s| - 2 - k);
      assert prefix[k] == s[k];
    }
  }
}

=== FILE: session.dfy ===
/** The serial session of `slcanRxTask` (main/slcan.c:369-414) end to
    end, with the corrected framer: chunks arrive, the corrected chunk
    step (`Framer.Feed`) cuts them into commands, the dispatcher runs each
    command as soon as its CR has arrived, and the responses go out in
    order. The source's save as written (`Framer.FeedAsWritten`) can
    overwrite a partial command and is not what this module runs. */
module Session {
  import opened Base
  import opened Hex
  import opened Frame
  import opened Can
  import opened Framer
  import opened Slcan

  /** A line is never a bare `S`: its last byte is CR. */
  lemma LineIsReadable(e: Engine, cmd: string)
    requires IsLine(cmd)
    ensures Readable(e, cmd)
  {
  }

  /** Runs the commands in order, command `i` with the driver and efuse
      answers `hws[i]`; the output is the responses in the same order. */
  function ExecuteAll(e: Engine, commands: seq<string>, hws: seq<Hardware>): (r: Reply)
    requires EngineValid(e) && AllLines(commands) && |hws| >= |commands|
    ensures EngineValid(r.engine)
    ensures |commands| == 0 ==> r == Reply(e, [])
    decreases |commands|
  {
    if |commands| == 0 then Reply(e, [])
    else
      LineIsReadable(e, commands[0]);
      var first := Execute(e, commands[0], hws[0]);
      var rest := ExecuteAll(first.engine, commands[1..], hws[1..]);
      Reply(rest.engine, first.response + rest.response)
  }

  /** Running two batches one after the other, the second on the answers
      left over by the first, is running them as one. */
  lemma {:induction false} ExecuteAllAppend(e: Engine, a: seq<string>, b: seq<string>, hws: seq<Hardware>)
    requires EngineValid(e) && AllLines(a) && AllLines(b) && |hws| >= |a| + |b|
    ensures AllLines(a + b)
    ensures var ra := ExecuteAll(e, a, hws);
      var rb := ExecuteAll(ra.engine, b, hws[|a|..]);
      ExecuteAll(e, a + b, hws) == Reply(rb.engine, ra.response + rb.response)
    decreases |a|
  {
    AllLinesAppend(a, b);
    if |a| == 0 {
      assert a + b == b;
      assert hws[|a|..] == hws;
    } else {
      assert (a + b)[0] == a[0];
      assert (a + b)[1..] == a[1..] + b;
      assert hws[1..][|a| - 1..] == hws[|a|..];
      var first := Execute(e, a[0], hws[0]);
      ExecuteAllAppend(first.engine, a[1..], b, hws[1..]);
      var ra := ExecuteAll(first.engine, a[1..], hws[1..]);
      var rb := ExecuteAll(ra.engine, b, hws[|a|..]);
      assert first.response + (ra.response + rb.response) == (first.response + ra.response) + rb.response;
    }
  }

  lemma AllLinesAppend(a: seq<string>, b: seq<string>)
    requires AllLines(a) && AllLines(b)
    ensures AllLines(a + b) && (|a| > 0 ==> AllLines(a[1..]))
  {
    forall i | 0 <= i < |a + b|
      ensures IsLine((a + b)[i])
    {
      if i < |a| {
        assert (a + b)[i] == a[i];
      } else {
        assert (a + b)[i] == b[i - |a|];
      }
    }
  }

  /** The engine and the characters after the last CR so far. */
  datatype Session = Session(engine: Engine, pending: string)

  /** The engine after `slcanInit`, nothing pending. */
  const Start: Session := Session(Slcan.Init, [])

  predicate SessionValid(s: Session) {
    EngineValid(s.engine) && NoCr(s.pending)
  }

  datatype Served = Served(session: Session, output: string)

  /** One chunk from the serial line: every command it completes is run,
      in order, the `i`-th of them with the answers `hws[i]`, and the rest
      is kept. */
  function Serve(s: Session, chunk: string, hws: seq<Hardware>): (r: Served)
    requires SessionValid(s) && |hws| >= |Feed(s.pending, chunk).commands|
    ensures SessionValid(r.session)
    ensures r.session.pending == Feed(s.pending, chunk).remainder
  {
    var sp := Feed(s.pending, chunk);
    FeedSplits(s.pending, chunk);
    var x := ExecuteAll(s.engine, sp.commands, hws);
    Served(Session(x.engine, sp.remainder), x.response)
  }

  /** Chunk after chunk, the commands of the session taking the answers of
      `hws` in order; what is kept is what the framer keeps. */
  function ServeAll(s: Session, chunks: seq<string>, hws: seq<Hardware>): (r: Served)
    requires SessionValid(s) && |hws| >= |FeedAll(s.pending, chunks).commands|
    ensures SessionValid(r.session)
    ensures r.session.pending == FeedAll(s.pending, chunks).remainder
    decreases |chunks|
  {
    if |chunks| == 0 then Served(s, [])
    else
      var used := |Feed(s.pending, chunks[0]).commands|;
      var first := Serve(s, chunks[0], hws);
      var rest := ServeAll(first.session, chunks[1..], hws[used..]);
      Served(rest.session, first.output + rest.output)
  }

  /** What the whole text `stream` does when its commands run in one go,
      command `i` with the answers `hws[i]`. */
  function Whole(e: Engine, stream: string, hws: seq<Hardware>): (r: Served)
    requires EngineValid(e) && |hws| >= |SplitLines(stream).commands|
    ensures SessionValid(r.session)
  {
    var sp := SplitLines(stream);
    SplitLinesSplits(stream);
    var x := ExecuteAll(e, sp.commands, hws);
    Served(Session(x.engine, sp.remainder), x.response)
  }

  /** However the serial line cuts the stream into chunks, the session
      ends in the same state with the same output as if the pending text
      and all chunks had arrived at once: the `i`-th command of the stream
      gets the answers `hws[i]` whichever chunk completes it. */
  lemma {:induction false} ServeAllIsWhole(s: Session, chunks: seq<string>, hws: seq<Hardware>)
    requires SessionValid(s) && |hws| >= |FeedAll(s.pending, chunks).commands|
    ensures FeedAll(s.pending, chunks) == SplitLines(s.pending + Concat(chunks))
    ensures ServeAll(s, chunks, hws) == Whole(s.engine, s.pending + Concat(chunks), hws)
    decreases |chunks|
  {
    FeedAllIsSplitLines(s.pending, chunks);
    if |chunks| == 0 {
      assert s.pending + Concat(chunks) == s.pending;
      SplitLinesUnique(s.pending, Split([], s.pending));
    } else {
      var used := |Feed(s.pending, chunks[0]).commands|;
      var first := Serve(s, chunks[0], hws);
      ServeAllIsWhole(first.session, chunks[1..], hws[used..]);
      WholeAfterChunk(s, chunks, hws);
    }
  }

  /** The whole stream is the commands of its first chunk, then the whole
      of what follows them. */
  lemma WholeAfterChunk(s: Session, chunks: seq<string>, hws: seq<Hardware>)
    requires SessionValid(s) && |chunks| > 0 && |hws| >= |FeedAll(s.pending, chunks).commands|
    ensures var sp := Feed(s.pending, chunks[0]);
      && |hws| >= |SplitLines(s.pending + Concat(chunks)).commands|
      && |hws[|sp.commands|..]| >= |SplitLines(sp.remainder + Concat(chunks[1..])).commands|
      && var first := Serve(s, chunks[0], hws);
      var w := Whole(first.session.engine, sp.remainder + Concat(chunks[1..]), hws[|sp.commands|..]);
      Whole(s.engine, s.pending + Concat(chunks), hws) == Served(w.session, first.output + w.output)
  {
    var sp := Feed(s.pending, chunks[0]);
    FeedSplits(s.pending, chunks[0]);
    FeedAllIsSplitLines(s.pending, chunks);
    FeedAllIsSplitLines(sp.remainder, chunks[1..]);
    WholeSplit(s.engine, s.pending + Concat(chunks), sp.commands, sp.remainder + Concat(chunks[1..]), hws);
  }

  /** Lines in front of the rest of a stream run first, then the rest. */
  lemma WholeSplit(e: Engine, stream: string, lines: seq<string>, t: string, hws: seq<Hardware>)
    requires EngineValid(e) && AllLines(lines)
    requires SplitLines(stream) == Prepend(lines, SplitLines(t))
    requires |hws| >= |SplitLines(stream).commands|
    ensures |hws[|lines|..]| >= |SplitLines(t).commands|
    ensures var x := ExecuteAll(e, lines, hws);
      var w := Whole(x.engine, t, hws[|lines|..]);
      Whole(e, stream, hws) == Served(w.session, x.response + w.output)
  {
    var tail := SplitLines(t);
    assert AllLines(tail.commands) by { SplitLinesSplits(t); }
    ExecuteAllAppend(e, lines, tail.commands, hws);
  }

  /** Two ways of cutting the same stream give the same output. */
  lemma ChunkingIsInvisible(chunks: seq<string>, other: seq<string>, hws: seq<Hardware>)
    requires Concat(chunks) == Concat(other)
    requires |hws| >= |FeedAll([], chunks).commands|
    ensures |hws| >= |FeedAll([], other).commands|
    ensures ServeAll(Start, chunks, hws) == ServeAll(Start, other, hws)
  {
    FeedAllIsSplitLines([], chunks);
    FeedAllIsSplitLines([], other);
    ServeAllIsWhole(Start, chunks, hws);
    ServeAllIsWhole(Start, other, hws);
  }

  /** The engine after `S5`, and after `S5` and `O`. */
  const Staged: Engine := Engine(Can.Init, Some(Kbit250))
  const Opened: Engine := Engine(Gateway(1, Some(Normal)), Some(Kbit250))

  /** The three steps of the session below, one at a time. */
  lemma OpenSteps(hw: Hardware)
    requires hw.installOk && hw.startOk
    ensures Execute(Slcan.Init, "S5\r", hw) == Reply(Staged, "\r")
    ensures Execute(Staged, "O\r", hw) == Reply(Opened, "\r")
    ensures Execute(Opened, "t1230\r", hw) == Reply(Opened, "z\r")
  {
    StageStep(hw);
    TransmitSteps(hw);
  }

  lemma StageStep(hw: Hardware)
    ensures Execute(Slcan.Init, "S5\r", hw) == Reply(Staged, "\r")
  {
  }

  /** A frame is acknowledged on the open bus and refused before the bus
      is open. */
  lemma TransmitSteps(hw: Hardware)
    ensures Execute(Opened, "t1230\r", hw) == Reply(Opened, "z\r")
    ensures Execute(Slcan.Init, "t1230\r", hw) == Reply(Slcan.Init, [BEL])
  {
    StandardExample();
  }

  /** `S5`, `O`, then a standard frame: two OKs and a `z`. */
  lemma OpenThenTransmit(stage: Hardware, open: Hardware, send: Hardware)
    requires open.installOk && open.startOk
    ensures AllLines(["S5\r", "O\r", "t1230\r"])
    ensures ExecuteAll(Slcan.Init, ["S5\r", "O\r", "t1230\r"], [stage, open, send]).response == "\r\rz\r"
  {
    StageStep(stage);
    OpenTransmitSteps(open, send);
    ExecuteAllCons(Slcan.Init, "S5\r", ["O\r", "t1230\r"], stage, [open, send]);
    assert [stage, open, send] == [stage] + [open, send];
    assert ["S5\r", "O\r", "t1230\r"] == ["S5\r"] + ["O\r", "t1230\r"];
  }

  lemma OpenTransmitSteps(open: Hardware, send: Hardware)
    requires open.installOk && open.startOk
    ensures AllLines(["O\r", "t1230\r"])
    ensures ExecuteAll(Staged, ["O\r", "t1230\r"], [open, send]) == Reply(Opened, "\r" + "z\r")
  {
    OpenSteps(open);
    TransmitSteps(send);
    ExecuteAllCons(Opened, "t1230\r", [], send, []);
    ExecuteAllCons(Staged, "O\r", ["t1230\r"], open, [send]);
    assert ["t1230\r"] + [] == ["t1230\r"] && [send] + [] == [send];
    assert ["O\r"] + ["t1230\r"] == ["O\r", "t1230\r"] && [open] + [send] == [open, send];
  }

  /** `S5`, then an `O` whose driver install fails, then an `O` whose
      driver calls succeed: OK, BEL, OK, and the bus ends open. */
  lemma RetryOpen(stage: Hardware, fail: Hardware, open: Hardware)
    requires !fail.installOk && open.installOk && open.startOk
    ensures AllLines(["S5\r", "O\r", "O\r"])
    ensures ExecuteAll(Slcan.Init, ["S5\r", "O\r", "O\r"], [stage, fail, open]) == Reply(Opened, "\r" + [BEL] + "\r")
  {
    StageStep(stage);
    RetrySteps(fail, open);
    ExecuteAllCons(Slcan.Init, "S5\r", ["O\r", "O\r"], stage, [fail, open]);
    assert [stage, fail, open] == [stage] + [fail, open];
    assert ["S5\r", "O\r", "O\r"] == ["S5\r"] + ["O\r", "O\r"];
  }

  /** The engine after an `O` whose driver calls failed: closed, but with
      the mode recorded. */
  const Failed: Engine := Engine(Gateway(0, Some(Normal)), Some(Kbit250))

  lemma RetrySteps(fail: Hardware, open: Hardware)
    requires !fail.installOk && open.installOk && open.startOk
    ensures AllLines(["O\r", "O\r"])
    ensures ExecuteAll(Staged, ["O\r", "O\r"], [fail, open]) == Reply(Opened, [BEL] + "\r")
  {
    assert Execute(Staged, "O\r", fail) == Reply(Failed, [BEL]);
    assert Execute(Failed, "O\r", open) == Reply(Opened, "\r");
    ExecuteAllCons(Failed, "O\r", [], open, []);
    ExecuteAllCons(Staged, "O\r", ["O\r"], fail, [open]);
    assert ["O\r"] + [] == ["O\r"] && [open] + [] == [open];
    assert ["O\r"] + ["O\r"] == ["O\r", "O\r"] && [fail] + [open] == [fail, open];
  }

  /** Running a command in front of a batch. */
  lemma ExecuteAllCons(e: Engine, cmd: string, rest: seq<string>, h: Hardware, hs: seq<Hardware>)
    requires EngineValid(e) && IsLine(cmd) && AllLines(rest) && |hs| >= |rest|
    ensures AllLines([cmd] + rest)
    ensures var first := Execute(e, cmd, h);
      var later := ExecuteAll(first.engine, rest, hs);
      ExecuteAll(e, [cmd] + rest, [h] + hs) == Reply(later.engine, first.response + later.response)
  {
    AllLinesAppend([cmd], rest);
    assert ([cmd] + rest)[1..] == rest && ([h] + hs)[1..] == hs;
  }

  /** A standard data frame on the wire, and read back. */
  lemma StandardExample()
    ensures FormatFrame(CanMessage(false, false, 0x123, 0, [])) == "t1230\r"
    ensures Frame.ParseFrame("t1230\r") == Some(CanMessage(false, false, 0x123, 0, []))
  {
    var m := CanMessage(false, false, 0x123, 0, []);
    assert EncodeHex(0x1, 1) == "1";
    assert EncodeHex(0x12, 2) == "12";
    assert EncodeHex(0x123, 3) == "123";
    assert EncodePayload(m.data[..0]) == [];
    ParseFrameRoundTrip(m);
  }

  /** An extended remote frame on the wire: a remote frame still carries
      its data bytes. */
  lemma ExtendedRemoteExample()
    ensures FormatFrame(CanMessage(true, true, 0x1ABCDEF, 2, [0xA5, 0x0F])) == "R01ABCDEF2A50F\r"
  {
    ExtendedIdentifierExample();
    PayloadExample();
    var m := CanMessage(true, true, 0x1ABCDEF, 2, [0xA5, 0x0F]);
    assert m.data[..2] == m.data;
    assert HexDigit(2 % 16) == '2';
    assert FormatFrame(m) == ['R'] + "01ABCDEF" + ['2'] + "A50F" + [CR];
  }

  lemma PayloadExample()
    ensures EncodePayload([0xA5, 0x0F]) == "A50F"
  {
    assert EncodePayload([0x0F]) == "0F";
  }

  /** Eight identifier digits, leading zero included. */
  lemma ExtendedIdentifierExample()
    ensures EncodeHex(0x1ABCDEF, 8) == "01ABCDEF"
  {
    assert EncodeHex(0x0, 1) == "0";
    assert EncodeHex(0x1, 2) == "01";
    assert EncodeHex(0x1A, 3) == "01A";
    assert EncodeHex(0x1AB, 4) == "01AB";
    assert EncodeHex(0x1ABC, 5) == "01ABC";
    assert EncodeHex(0x1ABCD, 6) == "01ABCD";
    assert EncodeHex(0x1ABCDE, 7) == "01ABCDE";
  }
}
